=== FILE: README.md ===
# iubus core, modelled in Dafny

iubus is a slash-command framework for discord.js bots. This project models its core:

- **Command descriptors.** There are two kinds:
  - the `BaseCommand` family (chat-input, user and message context-menu commands);
  - the older single `Command` class that the `Iubus` singleton uses.
- **Registries.** Commands and inhibitors are registered by name.
- **Deploy on change.**
  - Local and remote commands are normalised into one payload shape.
  - Both sides are sorted by name, with nested `options` sorted too.
  - A directional deep comparison decides whether anything changed.
  - If it did, the whole local set is pushed to the global route or to a guild's route.
- **Interaction dispatch.** It comes in two versions:
  - a non-throwing listener, which skips malformed subcommand trees;
  - the `Iubus` listener, which throws on them.
- **Start-up guards.** `Iubus.init` and `IubusClient.login` each run only once.

JavaScript values are a `Json` datatype with these kinds: undefined, null, booleans, integers, strings, arrays and plain objects.

- JavaScript truthiness, `??` and `Object.is` are modelled explicitly.
- Handler functions supplied by a bot author are opaque identities (`Handler`).
- Dispatch returns the sequence of handlers it calls, in order.
- A thrown error is the `Failure` case of a `Result`.
- Module discovery is a parameter: the sequence of discovered commands or inhibitors.
- The remote command set is also a parameter.
- A deploy is a `Push(route, body)` value rather than an HTTP request.

Modules, one per file:

- `JsonValue` (`json.dfy`)
- `Compare` (`deep_compare.dfy`)
- `StringOrder`
- `CommandSort`
- `CommandDeployment`
- `Constants`
- `Command` (`src/structures/Command.ts`)
- `LegacyCommand` (`lib/structures/Command.ts`)
- `Inhibitors`
- `Collections` (the discord.js `Collection`, a `Map`)
- `Dispatch`
- `Iubus`
- `IubusClient`
- helper modules `Wrappers` and `Seqs`

## Model

| member | source | states |
|---|---|---|
| Compare.DeepCompare | lib/util/deepCompare.ts:5-28 | `Object.is`-equal values match. A falsy value matches nothing it is not identical to. Arrays of different lengths never match. Two values that are not identical match only when both are objects. |
| Compare.DeepCompareReflexive | lib/util/deepCompare.ts:7-25 | Every value matches itself, so modelling arrays and objects as references that `Object.is` never equates changes no result. |
| Compare.ObjectComparison | lib/util/deepCompare.ts:20-25 | Two objects match exactly when every key of the first is in the second with a matching value (both directions). |
| Compare.ArrayComparison | lib/util/deepCompare.ts:12-17 | Two arrays match exactly when they have the same length and match position by position (both directions). |
| Compare.ExtraPropertiesIgnored | lib/util/deepCompare.ts:20-25 | An object matches any object that extends it: extra properties of the second object never cause a mismatch. |
| Compare.MissingPropertyFails | lib/util/deepCompare.ts:23 | In the model, a property of the first object that the second does not hold as its own is a mismatch. The code's inherited `__proto__` exception is under "## Left out". |
| Compare.PropertyMismatchFails | lib/util/deepCompare.ts:23 | A shared property whose values do not match makes the objects mismatch. |
| Compare.SingletonArrays | lib/util/deepCompare.ts:12-17 | One-element arrays match exactly when their elements do. |
| Compare.ArrayMatchesIndexObject | lib/util/deepCompare.ts:20-25 | An array and an object holding its elements under the index keys fall into the object branch and match in both directions. |
| Compare.ArrayAgainstObject | lib/util/deepCompare.ts:20-25 | An array matches a plain object exactly when every index of the array is a key of the object whose value the element matches (both directions). |
| Compare.ObjectAgainstArray | lib/util/deepCompare.ts:20-25 | A plain object matches an array exactly when each of its keys is `length`, with a value matching the array's length, or an index of the array whose element the value matches (both directions). |
| Compare.NotTransitive | lib/util/deepCompare.ts:12-25 | The comparison is not transitive: `[1]` matches `{"0": 1}`, which matches `[1, 2]`, yet `[1]` does not match `[1, 2]`. |
| Compare.DirectionalFixture | lib/util/deepCompare.ts:20-25 | `{name: "ping"}` matches `{name: "ping", dm_permission: true}`, but not the other way round. |
| StringOrder.StrLtTransitive | lib/util/commandDeployment.ts:79 | The name order the comparator uses is transitive. |
| StringOrder.StrLtTotal | lib/util/commandDeployment.ts:79 | Any two different names are ordered one way or the other, so sorting by name is well defined. |
| CommandSort.SortByName | lib/util/commandDeployment.ts:79 | Sorting returns a reordering of its input: the same multiset and the same length. |
| CommandSort.SortByNameAscending | lib/util/commandDeployment.ts:79 | With unique names, the sorted list is in strictly ascending name order. |
| CommandSort.AscendingPermutationsEqual | lib/util/commandDeployment.ts:79 | The sorted order is unique: two name-ascending reorderings of the same payloads are the same list. |
| CommandSort.SortByNameCanonical | lib/util/commandDeployment.ts:79 | With unique names, sorting gives the same list for every ordering of its input. |
| CommandSort.SortCommands | lib/util/commandDeployment.ts:73-80 | `sortCommands` keeps the length and returns a reordering of its payloads, each with its own nested options sorted. |
| CommandSort.SortEachNested | lib/util/commandDeployment.ts:74-78 | The loop sorts each payload's nested `options` in place and keeps the payloads in their positions. |
| CommandSort.SortNested | lib/util/commandDeployment.ts:75-77 | A payload without an options array is unchanged. Otherwise it keeps its keys, every property but `options` keeps its value, and the options list keeps its length. |
| CommandSort.SortNestedOnlyReorders | lib/util/commandDeployment.ts:75-79 | Sorting only reorders: the new options list holds exactly the old options, each with its own nested options sorted. |
| CommandSort.SortCommandsDeepAscending | lib/util/commandDeployment.ts:73-80 | With unique names at every level, the outer list and every nested `options` list come out in ascending name order. |
| CommandSort.SortCommandsCanonical | lib/util/commandDeployment.ts:73-80 | With unique names, `sortCommands` gives the same result for every ordering of its input. |
| CommandSort.SortCommandsSingleton | lib/util/commandDeployment.ts:73-80 | A one-payload list only has that payload's nested options sorted. |
| CommandDeployment.TransformOption | lib/util/commandDeployment.ts:107-113 | An option keeps every property and gains exactly `name_localizations` and `description_localizations`. `name_localizations` is `nameLocalizations`, or `{}` when that is nullish, so it is never nullish. `description_localizations` copies `descriptionLocalizations`, undefined included. |
| CommandDeployment.PermissionString | lib/util/commandDeployment.ts:96 | The result is undefined exactly when the permission is missing, and a string otherwise. An integer bit field becomes its decimal string, a string is kept, and an object renders as `[object Object]`. |
| CommandDeployment.TransformedOptions | lib/util/commandDeployment.ts:98 | Missing or falsy `options` become `[]`. Otherwise each option is transformed, in order. |
| CommandDeployment.TransformCommand | lib/util/commandDeployment.ts:89-100 | The payload has exactly the eight snake_case keys. Each key is tied to its camelCase source property: an absent `description` becomes `""`, and absent or nullish `descriptionLocalizations` become `{}`. |
| CommandDeployment.TransformCommands | lib/util/commandDeployment.ts:86-101 | There is one payload per command, in order: payload `i` is the normalised form of command `i`, with exactly the eight canonical keys. |
| CommandDeployment.TransformReadsOnlySourceKeys | lib/util/commandDeployment.ts:89-100 | The normaliser reads only its eight source properties. Commands that agree on those give the same payload, whatever else they carry. |
| CommandDeployment.PingFixtureMatches | lib/util/commandDeployment.ts:89-100 | A remote `{name: "ping", dm_permission: true}` matches the local `{name: "ping"}`, because the snake_case property is dropped by normalisation. |
| CommandDeployment.PermissionMismatch | lib/util/commandDeployment.ts:97 | A command without `dmPermission` never matches one whose `dmPermission` is true. |
| CommandDeployment.PingFixtureDiffers | lib/util/commandDeployment.ts:61-65 | A remote `{name: "ping", dmPermission: true}` differs from the local `{name: "ping"}`. |
| CommandDeployment.DeployRoute | lib/util/commandDeployment.ts:23-25 | The push goes to the global route exactly when deploying globally, and to the guild's route otherwise. |
| CommandDeployment.DeployableCommands | lib/util/commandDeployment.ts:51 | In global mode, exactly the commands not marked `dontDeployGlobally` are kept, each with as many copies as it had. In guild mode, all commands are kept as they are. |
| CommandDeployment.DeployableCommandsConcat | lib/util/commandDeployment.ts:41 | `filter` keeps discovery order: the deployable commands of a list made of two parts are those of the first part followed by those of the second. |
| CommandDeployment.DeployableCommandsSingle | lib/util/commandDeployment.ts:41 | A single command is kept exactly once, unless a global deploy drops it for `dontDeployGlobally`. With the previous row, this fixes the result. |
| CommandDeployment.DeployCommands | lib/util/commandDeployment.ts:39-43 | A manual deploy pushes to the chosen route one payload per deployable command, in discovery order: payload `i` is the normalised form of deployable command `i` and carries its name. |
| CommandDeployment.LocalPayloadsUnique | lib/util/commandDeployment.ts:61 | Distinct local command names give distinct payload names. |
| CommandDeployment.DeployOnChange | lib/util/commandDeployment.ts:49-67 | Nothing is pushed exactly when the sorted, normalised local set matches the remote one. A push goes to the chosen route and carries one payload per deployable command: the sorted local payloads, ascending by name when names are distinct. |
| CommandDeployment.NoPushWhenRemoteMirrorsLocal | lib/util/commandDeployment.ts:61-65 | When the remote objects carry the same camelCase data properties as the deployable local commands, in any order, nothing is pushed. |
| CommandDeployment.SnakeCaseEchoPushes | lib/util/commandDeployment.ts:61-66 | Handing back the normalised payload itself does not count as a match: a local command with `dmPermission: true` whose remote copy holds only `dm_permission` is pushed again. |
| CommandDeployment.PushWhenCountsDiffer | lib/util/commandDeployment.ts:63-66 | A remote set with a different number of commands always triggers a push. |
| CommandDeployment.LocalOrderIrrelevant | lib/util/commandDeployment.ts:61-66 | The order of the local commands changes neither the decision nor the payload pushed. |
| CommandDeployment.RemoteOrderIrrelevant | lib/util/commandDeployment.ts:62-65 | The order of the remote commands never changes the decision. |
| CommandDeployment.GlobalPushExcludesGuildOnly | lib/util/commandDeployment.ts:51-66 | In global mode, no pushed payload carries the name of a command marked `dontDeployGlobally`. |
| Constants.GlobalDeployUrl | lib/util/constants.ts:1 | The global route is `/applications/<id>/commands`. |
| Constants.GuildDeployUrl | lib/util/constants.ts:2-3 | The guild route is `/applications/<id>/guilds/<guild>/commands` and is never the global route of the same application. |
| Constants.GlobalDeployUrlInjective | lib/util/constants.ts:1 | Different applications have different global routes. |
| Constants.GuildDeployUrlInjective | lib/util/constants.ts:2-3 | Different guilds of one application have different routes. |
| Command.NewBase | src/structures/Command.ts:28-35 | The shared fields are copied. `dontDeployGlobally` holds exactly when the author set it to true; it defaults to false. |
| Command.NewChatInputCommand | src/structures/Command.ts:51-60 | The type is chat input. The shared fields (name, name localizations, permissions, inhibitors, `run`) are copied, and `dontDeployGlobally` holds only when set to true. The description, localizations, subcommands and autocomplete handler are copied. Missing options become `[]`. |
| Command.NewUserContextMenuCommand | src/structures/Command.ts:70-73 | The type is user. The shared fields are copied as for a chat-input command. There is no description or options property, and no subcommands or autocomplete handler. |
| Command.NewMessageContextMenuCommand | src/structures/Command.ts:83-86 | The type is message. The shared fields are copied as for a chat-input command. There is no description or options property, and no subcommands or autocomplete handler. |
| Command.CommandProps | src/structures/Command.ts:17-46 | An instance owns `name` and `type` (1, 2 or 3). It owns `description`, `descriptionLocalizations` and `options` exactly when it is a chat-input command. |
| Command.DispatchTarget | src/structures/Command.ts:41-87 | Dispatch sees the command's name, type and `run`. A chat-input command's subcommand tree and autocomplete handler are passed on unchanged; other commands carry neither. |
| LegacyCommand.NewCommand | lib/structures/Command.ts:19-28 | The type defaults to chat input. The description is kept only for chat input and is `""` otherwise. Options default to `[]`. Subcommands and autocomplete are kept. |
| LegacyCommand.DispatchTarget | lib/structures/Command.ts:9-17 | Dispatch sees the command's name, type, `run`, autocomplete handler and subcommand tree unchanged. |
| Inhibitors.NewInhibitor | lib/structures/Inhibitor.ts:12-15 | An inhibitor copies its name and guard. |
| Collections.Set | lib/structures/Iubus.ts:29 | After `set`, the key reads the new value and other keys are unchanged. An existing key keeps its position, and every entry under another key stays where and what it was; a new key is appended. Keys stay unique. |
| Collections.SetAllLastWins | lib/structures/IubusClient.ts:44-46 | After the registration loop, each name reads the last command registered under it. Names nobody registered keep their old value. |
| Collections.SetAllKeyed | lib/structures/Iubus.ts:28-30 | The registration loop keeps keys unique, each the name of its own value. |
| Collections.ValuesDistinct | lib/structures/IubusClient.ts:44-46 | The values of such a registry have pairwise distinct names. |
| Dispatch.ListenerSubcommandStage | lib/util/interactionListener.ts:27-35 | A group the tree holds, with the subcommand as its own member, calls that member. With no group, a method the tree holds under the subcommand is called. Every other shape calls nothing, including names that read inherited `Object` properties. |
| Dispatch.IubusSubcommandStage | lib/structures/Iubus.ts:75-96 | It throws exactly on a malformed entry. When it does not throw, it calls exactly what the listener's subcommand stage calls. |
| Dispatch.ListenerRoute | lib/util/interactionListener.ts:14-46 | Each case has its own outcome: autocomplete calls only the autocomplete handler; chat input runs the subcommand stage then `run`; a context menu calls `run` only when the command type matches. Anything else calls nothing. |
| Dispatch.ListenerDispatch | lib/util/interactionListener.ts:4-47 | Non-command interactions and unknown command names call nothing. Otherwise the registered command is routed. |
| Dispatch.IubusRoute | lib/structures/Iubus.ts:65-105 | Only a chat-input interaction on a chat-input command can throw. |
| Dispatch.IubusDispatch | lib/structures/Iubus.ts:58-106 | Non-command interactions and unknown command names call nothing. Otherwise the registered command is routed. |
| Dispatch.IubusFailsIffMalformed | lib/structures/Iubus.ts:75-96 | The `Iubus` listener throws exactly when the entry the interaction names is malformed (both directions). A group entry is malformed when it is a method, or absent and not `__proto__`, or when the subcommand is an inherited `__proto__` that cannot be called. An ungrouped entry is malformed when there is no tree, or it is a group, or it is absent and not `constructor`. |
| Dispatch.IubusAgreesWithListener | lib/structures/Iubus.ts:71-99 | Whenever the `Iubus` listener does not throw, it calls exactly what the non-throwing listener calls. |
| Dispatch.MalformedOnlyRuns | lib/util/interactionListener.ts:27-37 | On a malformed entry, the non-throwing listener skips the subcommand stage and still calls `run`. |
| Dispatch.AutocompleteIsolated | lib/util/interactionListener.ts:15-17 | An autocomplete interaction calls at most the autocomplete handler, in both versions. |
| Dispatch.RunComesLast | lib/util/interactionListener.ts:20-37 | A chat-input interaction on a command with `run` calls at most one subcommand handler, then `run` last. |
| Dispatch.RoleFixture | lib/structures/Iubus.ts:75-96 | For the tree `{add: fn1, group: {member: fn2}}`: `add` calls fn1, and `group member` calls fn2. A group name naming the method `add` throws in `Iubus` and is skipped by the listener. |
| Dispatch.InheritedNamesFixture | lib/structures/Iubus.ts:75-98 | Names the tree does not hold read inherited properties. The subcommand `constructor` finds the `Object` function, so `Iubus` does not throw and only `run` is called. The group `__proto__` is an object, so it does not throw either. The subcommand `__proto__` of a real group is an object that cannot be called, so `Iubus` throws and the listener skips it. |
| Iubus.NewIubus | lib/structures/Iubus.ts:17-21 | A new instance has an empty registry and is not initialised. |
| Iubus.Init | lib/structures/Iubus.ts:23-55 | `init` throws "Cannot initialize twice." exactly when already initialised. Otherwise it marks the instance initialised and installs the listener. Without a command directory, the registry is unchanged. |
| Iubus.InitOnce | lib/structures/Iubus.ts:24-51 | A second `init` always throws. |
| Iubus.InitRegistersLastWins | lib/structures/Iubus.ts:26-31 | With a command directory, each discovered name is bound to the last command discovered under it. |
| Iubus.InitKeepsRegistryWellFormed | lib/structures/Iubus.ts:26-31 | Registration keeps each name bound to a command of that name, once. |
| Iubus.OnInteraction | lib/structures/Iubus.ts:50-58 | Before `init` nothing is called. Afterwards the throwing listener dispatches. |
| Iubus.InitThenDispatch | lib/structures/Iubus.ts:26-62 | After `init`, an interaction naming a discovered command is routed to the last command discovered under that name. |
| IubusClient.NewClient | lib/structures/IubusClient.ts:24-34 | A new client has empty registries, is not initialised, and has nothing installed. |
| IubusClient.Login | lib/structures/IubusClient.ts:36-90 | A second `login` throws "Cannot initialize twice.". The listener is installed exactly when a command directory is set. The ready hook is installed exactly when, in addition, `deploy.deployOnChange` is true. Registries change only when their directory is set. |
| IubusClient.LoginOnce | lib/structures/IubusClient.ts:37-87 | A second `login` always throws. |
| IubusClient.LoginKeepsRegistriesWellFormed | lib/structures/IubusClient.ts:39-84 | Both registries keep each name bound to an entry of that name, once. |
| IubusClient.LoginRegistersLastWins | lib/structures/IubusClient.ts:39-84 | Each discovered command name, and each discovered inhibitor name, is bound to the last one discovered. |
| IubusClient.OnInteraction | lib/structures/IubusClient.ts:53-55 | Without the listener nothing is called. With it, the non-throwing listener dispatches over the registry. |
| IubusClient.OnReady | lib/structures/IubusClient.ts:48-51 | Without the hook nothing is deployed. With it, a push happens exactly when the registered commands differ from the remote ones, and the payloads pushed ascend by name. The event removes the hook and changes nothing else. |
| IubusClient.SecondReadyDeploysNothing | lib/structures/IubusClient.ts:50 | The hook is registered with `once`: a second `ready` deploys nothing and leaves the client as it was. |
| IubusClient.RegisteredNamesDistinct | lib/structures/IubusClient.ts:44-46 | The registered commands have pairwise distinct names. |
| IubusClient.NoCommandDirNoHandlers | lib/structures/IubusClient.ts:39-56 | Without a command directory, no interaction calls anything and `ready` installs no deploy. |
| IubusClient.NoDeployOnChangeNoHook | lib/structures/IubusClient.ts:48-51 | With a command directory but without `deployOnChange`, the client listens but installs no ready hook. |

## Left out

**Not modelled at all**
- Inhibitor evaluation. No modelled code runs an inhibitor. The client passes its inhibitor registry to `interactionListener` as an extra argument, and the listener ignores it. Inhibitors are only constructed and registered.
- `resolveModules` (lib/util/resolveModules.ts). It does file-system traversal and dynamic imports. What it finds is a parameter, in discovery order.
- The REST `put` of `baseDeployCommands`, the guild and application fetches, `emitIubusEvent` and `super.login`. These are network I/O. The remote command set is an input, and a deploy is a `Push` value. The route choice of `baseDeployCommands` (lib/util/commandDeployment.ts:23-25) is modelled as `CommandDeployment.DeployRoute`.
- Event wiring (`client.on`/`once` for the event directory) and the `container` singleton. These are registration side effects with no logic to verify. Installing the listener and the ready hook is modelled as flags in the state.
- Asynchrony. Every `await` is taken to complete in program order. A handler's own behaviour is out of scope: dispatch records which handler is called, not what it does.

**Approximations**
- `Routes.applicationCommands` and `Routes.applicationGuildCommands` (discord.js) are not part of this model. The routes are the `GLOBAL_DEPLOY_URL` and `GUILD_DEPLOY_URL` formats of lib/util/constants.ts.
- CommandDeployment.PermissionString: a `Permissions` object is taken to render as a plain object (`[object Object]`); its class is not part of this model. Bit fields are integers rendered in decimal.
- StringOrder.StrLt: JavaScript compares strings by UTF-16 code units. The model compares characters lexicographically, which agrees on the Basic Multilingual Plane.
- Command.CommandProps: function-valued properties (`run`, `autocomplete`, `subcommands`) and `inhibitors` are not data the normaliser reads, so they are left out of the object view. Prototype-chain properties of arrays and objects (such as `toString`) are treated as absent. Where `deepCompare` reads one of them, it finds a function, and JSON data never compares equal to a function, so the result agrees. The exception is `__proto__`; see Compare.DeepCompare below.
- CommandSort.SortCommands: when names are not unique, `Array.prototype.sort` with a comparator that never returns 0 has an implementation-defined order. The model is one insertion sort. Ordering and canonicity are proved only for unique names, which are assumed.
- Payloads are treated as plain data: a primitive inside an `options` array, or a truthy non-array `options`, never occurs. The TypeScript parameter types exclude the latter, and `CommandObject` encodes that.
- CommandDeployment.NoPushWhenRemoteMirrorsLocal: the lemma assumes that each remote object has the same camelCase data properties as a deployable local command. That is not what was pushed: the push carries snake_case payloads (see `CommandDeployment.SnakeCaseEchoPushes`). Whether a redeploy after a successful push is a no-op depends on how the platform's client library reports the commands back, which this model does not include. For example, a remote command that reports an absent `nameLocalizations` as `null` differs from a local `undefined`: `name_localizations` is copied without `??` (lib/util/commandDeployment.ts:92), and `deepCompare` treats `undefined` and `null` as different (lib/util/deepCompare.ts:7-9). Extra fields that the platform fills in by default are covered separately by `Compare.ExtraPropertiesIgnored`.
- LegacyCommand: the `SingleSubcommands | GroupedSubcommands` type forbids mixing methods and groups in one tree. The model allows mixed trees, which both listeners handle.
- Numbers are integers: no NaN, no `-0`, no floating point.
- Compare.DeepCompare: a key of the first object that the second does not hold as its own is a mismatch in the model. In the code, `key in b` (lib/util/deepCompare.ts:23) also sees inherited properties. Under `__proto__` it finds `Object.prototype`, an object with no enumerable keys, or `Array.prototype` for an array. So `deepCompare({"__proto__": {}}, {})` is true in the code and false in the model, and `Compare.MissingPropertyFails` does not hold of the code for that key. Only parsed JSON can hold an own `__proto__` key: in an object literal `__proto__: x` sets the prototype instead. Neither the normaliser's payloads nor the platform's command objects carry one.
- Dispatch.IubusFailsIffMalformed: of the properties a subcommand tree inherits from `Object.prototype`, only `constructor` (the `Object` function) and `__proto__` (`Object.prototype`, whose own `__proto__` is null) are modelled. The other inherited names (`toString`, `valueOf`, `hasOwnProperty` and the rest) read as undefined in the model. Each of them has an upper-case letter, which the platform does not allow in a subcommand or group name, so no interaction carries one. In the code they would read built-in functions, most of which throw a `TypeError` when called unbound; the promise does not cover such names.
- Dispatch.ListenerSubcommandStage: the same upper-case inherited names read as undefined. In the code the listener would call those built-in functions, which record nothing but can throw.
- Iubus.InitOnce: `#initialized` is set only after the awaited module discovery (lib/structures/Iubus.ts:24-51). Two `init` calls that overlap in time both pass the guard. The model runs each call to completion, so it promises that a second call throws only when the first has finished.
- IubusClient.LoginOnce: likewise, `#initialized` is set at lib/structures/IubusClient.ts:87, after every await. Overlapping `login` calls both pass the guard, and the promise holds only for a call made after the first has finished.

**Behaviour of the code worth knowing**
- `transformOption` (lib/util/commandDeployment.ts:107-113) transforms only the top-level options of each command; nested options are left as they are. The model does the same.
- Neither listener evaluates inhibitors. `interactionListener` (lib/util/interactionListener.ts:4-47) ignores the inhibitor registry it is passed, and the `Iubus` listener has none.
- The pushed list is `transformedLocal` after `sortCommands` sorted it in place (lib/util/commandDeployment.ts:63-66), so a push is in name order. The model pushes the sorted list.
- `transformOption` copies an option with a shallow spread (lib/util/commandDeployment.ts:107-113). A normalised option therefore shares its nested `options` array with the author's own command object, or with the fetched remote command. `sortCommands` (lib/util/commandDeployment.ts:73-80) sorts those nested arrays in place, so it also reorders the nested options of the originals. The model has no aliasing: its values are immutable, and only the normalised copies are sorted. The push decision is the same either way.

=== FILE: collection.dfy ===
/** The name-keyed registries (`Collection`, a JavaScript `Map`): entries in
    insertion order; setting an existing key replaces its value in place. */
module Collections {
  import opened Wrappers

  datatype Collection<V> = Collection(entries: seq<(string, V)>)

  function Empty<V>(): Collection<V> {
    Collection([])
  }

  predicate KeysUnique<V>(c: Collection<V>) {
    forall i, j | 0 <= i < j < |c.entries| :: c.entries[i].0 != c.entries[j].0
  }

  function Keys<V>(c: Collection<V>): set<string> {
    set i | 0 <= i < |c.entries| :: c.entries[i].0
  }

  function Values<V>(c: Collection<V>): (r: seq<V>)
    ensures |r| == |c.entries|
    ensures forall i | 0 <= i < |r| :: r[i] == c.entries[i].1
  {
    seq(|c.entries|, i requires 0 <= i < |c.entries| => c.entries[i].1)
  }

  function Find<V>(entries: seq<(string, V)>, k: string): (r: Option<V>)
    ensures r.None? <==> forall i | 0 <= i < |entries| :: entries[i].0 != k
    ensures r.Some? ==> exists i | 0 <= i < |entries| :: entries[i] == (k, r.value)
  {
    if |entries| == 0 then None
    else if entries[0].0 == k then Some(entries[0].1)
    else Find(entries[1..], k)
  }

  /** `c.get(k)`. */
  function Get<V>(c: Collection<V>, k: string): (r: Option<V>)
    ensures r.Some? <==> k in Keys(c)
  {
    Find(c.entries, k)
  }

  function Replace<V>(entries: seq<(string, V)>, k: string, v: V): (r: seq<(string, V)>)
    ensures |r| == |entries| + (if forall i | 0 <= i < |entries| :: entries[i].0 != k then 1 else 0)
    ensures Find(r, k) == Some(v)
    ensures forall k' | k' != k :: Find(r, k') == Find(entries, k')
    ensures forall i | 0 <= i < |entries| :: r[i].0 == entries[i].0
    ensures forall i | 0 <= i < |entries| && entries[i].0 != k :: r[i] == entries[i]
    ensures (forall i | 0 <= i < |entries| :: entries[i].0 != k) ==> r == entries + [(k, v)]
    ensures forall i | 0 <= i < |r| :: r[i] == (k, v) || r[i] in entries
  {
    if |entries| == 0 then [(k, v)]
    else if entries[0].0 == k then [(k, v)] + entries[1..]
    else [entries[0]] + Replace(entries[1..], k, v)
  }

  /** `c.set(k, v)`: afterwards `k` maps to `v`, every other key keeps its
      value, and a key already present keeps its position. */
  function Set<V>(c: Collection<V>, k: string, v: V): (r: Collection<V>)
    ensures Get(r, k) == Some(v)
    ensures forall k' | k' != k :: Get(r, k') == Get(c, k')
    ensures Keys(r) == Keys(c) + {k}
    ensures k in Keys(c) ==> |r.entries| == |c.entries|
    ensures k !in Keys(c) ==> r.entries == c.entries + [(k, v)]
    ensures |r.entries| >= |c.entries|
    ensures forall i | 0 <= i < |c.entries| :: r.entries[i].0 == c.entries[i].0
    ensures forall i | 0 <= i < |c.entries| && c.entries[i].0 != k :: r.entries[i] == c.entries[i]
    ensures KeysUnique(c) ==> KeysUnique(r)
  {
    var r := Collection(Replace(c.entries, k, v));
    ReplaceKeys(c, k, v);
    r
  }

  /** Replacing adds `k` to the keys and keeps unique keys unique. */
  lemma ReplaceKeys<V>(c: Collection<V>, k: string, v: V)
    ensures Keys(Collection(Replace(c.entries, k, v))) == Keys(c) + {k}
    ensures KeysUnique(c) ==> KeysUnique(Collection(Replace(c.entries, k, v)))
  {
    var r := Collection(Replace(c.entries, k, v));
    forall x | x in Keys(r) ensures x in Keys(c) + {k} {
      var i :| 0 <= i < |r.entries| && r.entries[i].0 == x;
      if i >= |c.entries| {
        assert r.entries == c.entries + [(k, v)];
      }
    }
    forall x | x in Keys(c) ensures x in Keys(r) {
      var i :| 0 <= i < |c.entries| && c.entries[i].0 == x;
      assert r.entries[i].0 == x;
    }
    assert Get(r, k).Some?;
    if KeysUnique(c) {
      ReplaceKeepsUnique(c, k, v);
    }
  }

  /** Replacing in a collection with unique keys adds no duplicate key. */
  lemma ReplaceKeepsUnique<V>(c: Collection<V>, k: string, v: V)
    requires KeysUnique(c)
    ensures KeysUnique(Collection(Replace(c.entries, k, v)))
  {
    var r := Replace(c.entries, k, v);
    forall i, j | 0 <= i < j < |r| ensures r[i].0 != r[j].0 {
      if j >= |c.entries| {
        assert forall m | 0 <= m < |c.entries| :: c.entries[m].0 != k;
        assert r == c.entries + [(k, v)];
      }
    }
  }

  /** Every key is the `key` of its own value. */
  predicate KeyedBy<V>(c: Collection<V>, key: V -> string) {
    forall i | 0 <= i < |c.entries| :: c.entries[i].0 == key(c.entries[i].1)
  }

  /** Setting every value of `vs` in turn under its own `key`, as the
      registration loops do. */
  function SetAll<V>(c: Collection<V>, vs: seq<V>, key: V -> string): Collection<V>
    decreases |vs|
  {
    if |vs| == 0 then c
    else Set(SetAll(c, vs[..|vs| - 1], key), key(vs[|vs| - 1]), vs[|vs| - 1])
  }

  /** The last value of `vs` whose key is `k`. */
  function LastWithKey<V>(vs: seq<V>, k: string, key: V -> string): (r: Option<V>)
    ensures r.Some? ==> r.value in vs && key(r.value) == k
    ensures r.None? ==> forall i | 0 <= i < |vs| :: key(vs[i]) != k
    decreases |vs|
  {
    if |vs| == 0 then None
    else if key(vs[|vs| - 1]) == k then Some(vs[|vs| - 1])
    else LastWithKey(vs[..|vs| - 1], k, key)
  }

  /** After registering `vs`, each key maps to the last value registered
      under it, later duplicates overwriting earlier ones; keys nobody
      registered keep their old value. */
  lemma {:induction false} SetAllLastWins<V>(c: Collection<V>, vs: seq<V>, key: V -> string, k: string)
    ensures LastWithKey(vs, k, key).Some? ==> Get(SetAll(c, vs, key), k) == LastWithKey(vs, k, key)
    ensures LastWithKey(vs, k, key).None? ==> Get(SetAll(c, vs, key), k) == Get(c, k)
    decreases |vs|
  {
    if |vs| > 0 {
      SetAllLastWins(c, vs[..|vs| - 1], key, k);
    }
  }

  /** Registration keeps the keys unique and each key the key of its value. */
  lemma {:induction false} SetAllKeyed<V>(c: Collection<V>, vs: seq<V>, key: V -> string)
    requires KeysUnique(c) && KeyedBy(c, key)
    ensures KeysUnique(SetAll(c, vs, key)) && KeyedBy(SetAll(c, vs, key), key)
    decreases |vs|
  {
    if |vs| > 0 {
      var prev := SetAll(c, vs[..|vs| - 1], key);
      SetAllKeyed(c, vs[..|vs| - 1], key);
      var x := vs[|vs| - 1];
      var r := Set(prev, key(x), x);
      forall i | 0 <= i < |r.entries| ensures r.entries[i].0 == key(r.entries[i].1) {
        if r.entries[i].0 != key(x) {
          assert r.entries[i] in prev.entries;
        } else {
          assert Get(r, key(x)) == Some(x);
        }
      }
    }
  }

  /** The values of a collection with unique keys, each the key of its
      value, have pairwise distinct keys. */
  lemma ValuesDistinct<V>(c: Collection<V>, key: V -> string)
    requires KeysUnique(c) && KeyedBy(c, key)
    ensures forall i, j | 0 <= i < j < |Values(c)| :: key(Values(c)[i]) != key(Values(c)[j])
  {
  }
}

=== FILE: command.dfy ===
/** The command data model (src/structures/Command.ts): chat-input, user
    context-menu and message context-menu commands, their constructor
    defaults, the subcommand tree, and the two views the rest of the
    framework takes of a command: its data properties, read by the
    deployment normaliser, and its handlers, read by dispatch. */
module Command {
  import opened Wrappers
  import opened JsonValue
  import opened Inhibitors

  /** `ApplicationCommandType`. */
  datatype CommandType = ChatInput | User | Message {
    /** The enum's numeric value, as sent to the platform. */
    function Code(): (n: int)
      ensures 1 <= n <= 3
    {
      match this
      case ChatInput => 1
      case User => 2
      case Message => 3
    }
  }

  /** A subcommand tree entry: a method, or a group holding methods
      (exactly one level of grouping). */
  datatype SubcommandEntry = Method(handler: Handler) | Group(members: map<string, Handler>)

  type Subcommands = map<string, SubcommandEntry>

  type LocalizationMap = map<string, string>

  /** What dispatch reads of a command: its type, its handlers and its
      subcommand tree. */
  datatype Target = Target(
    name: string,
    kind: CommandType,
    run: Option<Handler>,
    autocomplete: Option<Handler>,
    subcommands: Option<Subcommands>)

  /** `BaseCommandData`: fields left out by the author are `None`. */
  datatype BaseCommandData = BaseCommandData(
    name: string,
    nameLocalizations: Option<LocalizationMap>,
    defaultMemberPermissions: Option<int>,
    dmPermission: Option<bool>,
    dontDeployGlobally: Option<bool>,
    inhibitors: Option<seq<InhibitorRef>>,
    run: Option<Handler>)

  /** `ChatInputCommandData`: the base fields plus the chat-input ones. */
  datatype ChatInputCommandData = ChatInputCommandData(
    base: BaseCommandData,
    description: string,
    descriptionLocalizations: Option<LocalizationMap>,
    options: Option<seq<Props>>,
    subcommands: Option<Subcommands>,
    autocomplete: Option<Handler>)

  /** The fields only one kind of command carries. */
  datatype Variant =
    | ChatInputFields(
        description: string,
        descriptionLocalizations: Option<LocalizationMap>,
        options: seq<Props>,
        subcommands: Option<Subcommands>,
        autocomplete: Option<Handler>)
    | UserFields
    | MessageFields

  /** A constructed command: the fields of `BaseCommand` and its variant. */
  datatype BaseCommand = BaseCommand(
    name: string,
    nameLocalizations: Option<LocalizationMap>,
    defaultMemberPermissions: Option<int>,
    dmPermission: Option<bool>,
    dontDeployGlobally: bool,
    inhibitors: Option<seq<InhibitorRef>>,
    run: Option<Handler>,
    variant: Variant)

  /** The key a command is registered under. */
  function CommandName(c: BaseCommand): string {
    c.name
  }

  /** The `type` each class fixes. */
  function TypeOf(c: BaseCommand): CommandType {
    match c.variant
    case ChatInputFields(_, _, _, _, _) => ChatInput
    case UserFields => User
    case MessageFields => Message
  }

  /** The `BaseCommand` constructor: copies the shared fields, and
      `dontDeployGlobally` holds only when the author set it to true. */
  function NewBase(data: BaseCommandData, run: Option<Handler>, variant: Variant): (c: BaseCommand)
    ensures c.name == data.name
    ensures c.nameLocalizations == data.nameLocalizations
    ensures c.defaultMemberPermissions == data.defaultMemberPermissions
    ensures c.dmPermission == data.dmPermission
    ensures c.inhibitors == data.inhibitors
    ensures c.dontDeployGlobally <==> data.dontDeployGlobally == Some(true)
    ensures c.run == run && c.variant == variant
  {
    BaseCommand(
      data.name, data.nameLocalizations, data.defaultMemberPermissions, data.dmPermission,
      data.dontDeployGlobally.GetOr(false), data.inhibitors, run, variant)
  }

  /** The command carries the shared fields of `data` as the `BaseCommand`
      constructor stores them. */
  predicate CopiesBase(c: BaseCommand, data: BaseCommandData) {
    && c.name == data.name
    && c.nameLocalizations == data.nameLocalizations
    && c.defaultMemberPermissions == data.defaultMemberPermissions
    && c.dmPermission == data.dmPermission
    && c.inhibitors == data.inhibitors
    && c.run == data.run
    && (c.dontDeployGlobally <==> data.dontDeployGlobally == Some(true))
  }

  /** `new ChatInputCommand(data)`. */
  function NewChatInputCommand(data: ChatInputCommandData): (c: BaseCommand)
    ensures TypeOf(c) == ChatInput
    ensures CopiesBase(c, data.base)
    ensures c.name == data.base.name && c.run == data.base.run
    ensures c.dontDeployGlobally <==> data.base.dontDeployGlobally == Some(true)
    ensures c.variant.options == data.options.GetOr([])
    ensures data.options.None? ==> c.variant.options == []
    ensures c.variant.description == data.description
    ensures c.variant.descriptionLocalizations == data.descriptionLocalizations
    ensures c.variant.subcommands == data.subcommands
    ensures c.variant.autocomplete == data.autocomplete
  {
    NewBase(data.base, data.base.run, ChatInputFields(
      data.description, data.descriptionLocalizations, data.options.GetOr([]),
      data.subcommands, data.autocomplete))
  }

  /** `new UserContextMenuCommand(data)`. */
  function NewUserContextMenuCommand(data: BaseCommandData): (c: BaseCommand)
    ensures TypeOf(c) == User
    ensures CopiesBase(c, data)
    ensures c.name == data.name && c.run == data.run
    ensures c.dontDeployGlobally <==> data.dontDeployGlobally == Some(true)
    ensures "description" !in CommandProps(c) && "options" !in CommandProps(c)
    ensures DispatchTarget(c).subcommands.None? && DispatchTarget(c).autocomplete.None?
  {
    NewBase(data, data.run, UserFields)
  }

  /** `new MessageContextMenuCommand(data)`. */
  function NewMessageContextMenuCommand(data: BaseCommandData): (c: BaseCommand)
    ensures TypeOf(c) == Message
    ensures CopiesBase(c, data)
    ensures c.name == data.name && c.run == data.run
    ensures c.dontDeployGlobally <==> data.dontDeployGlobally == Some(true)
    ensures "description" !in CommandProps(c) && "options" !in CommandProps(c)
    ensures DispatchTarget(c).subcommands.None? && DispatchTarget(c).autocomplete.None?
  {
    NewBase(data, data.run, MessageFields)
  }

  /** A localization map as a property value: `undefined` when unset. */
  function LocalizationValue(m: Option<LocalizationMap>): (v: Json)
    ensures m.None? <==> v == Undefined
  {
    match m
    case None => Undefined
    case Some(l) => Obj(map k | k in l :: Str(l[k]))
  }

  function OptionalInt(n: Option<int>): Json {
    match n
    case None => Undefined
    case Some(i) => Int(i)
  }

  function OptionalBool(b: Option<bool>): Json {
    match b
    case None => Undefined
    case Some(v) => Bool(v)
  }

  /** A command object as the normaliser reads it: when its `options`
      property is set and truthy, it is an array of option objects. */
  predicate OptionsShaped(c: Props) {
    "options" in c && Truthy(c["options"]) ==>
      c["options"].Arr? && forall i | 0 <= i < |c["options"].items| :: c["options"].items[i].Obj?
  }

  type CommandObject = c: Props | OptionsShaped(c) witness map[]

  /** The data properties a constructed command instance owns. Only a
      chat-input command owns `description`, `descriptionLocalizations`
      and `options`; handlers, subcommands and inhibitors are not data the
      normaliser reads. */
  function CommandProps(c: BaseCommand): (p: CommandObject)
    ensures "name" in p && p["name"] == Str(c.name)
    ensures "type" in p && p["type"] == Int(TypeOf(c).Code())
    ensures ("description" in p) <==> TypeOf(c) == ChatInput
    ensures ("descriptionLocalizations" in p) <==> TypeOf(c) == ChatInput
    ensures ("options" in p) <==> TypeOf(c) == ChatInput
  {
    var base := map[
      "name" := Str(c.name),
      "nameLocalizations" := LocalizationValue(c.nameLocalizations),
      "type" := Int(TypeOf(c).Code()),
      "defaultMemberPermissions" := OptionalInt(c.defaultMemberPermissions),
      "dmPermission" := OptionalBool(c.dmPermission),
      "dontDeployGlobally" := Bool(c.dontDeployGlobally)];
    match c.variant
    case ChatInputFields(description, descriptionLocalizations, options, _, _) =>
      base["description" := Str(description)]
          ["descriptionLocalizations" := LocalizationValue(descriptionLocalizations)]
          ["options" := Arr(seq(|options|, i requires 0 <= i < |options| => Obj(options[i])))]
    case _ => base
  }

  /** What dispatch reads of a command. Context-menu commands have neither
      subcommands nor an autocomplete handler. */
  function DispatchTarget(c: BaseCommand): (t: Target)
    ensures t.name == c.name && t.kind == TypeOf(c) && t.run == c.run
    ensures TypeOf(c) != ChatInput ==> t.subcommands.None? && t.autocomplete.None?
    ensures c.variant.ChatInputFields? ==>
      t.subcommands == c.variant.subcommands && t.autocomplete == c.variant.autocomplete
  {
    match c.variant
    case ChatInputFields(_, _, _, subcommands, autocomplete) =>
      Target(c.name, ChatInput, c.run, autocomplete, subcommands)
    case _ => Target(c.name, TypeOf(c), c.run, None, None)
  }
}

=== FILE: command_deployment.dfy ===
/** Deploy-on-change (lib/util/commandDeployment.ts): local and remote
    commands are normalised into one payload shape, both sides are sorted by
    name, and the local set is pushed only when the directional comparison
    finds a difference. Fetching and pushing are I/O: the remote commands
    are an input and the push is the result. */
module CommandDeployment {
  import opened Wrappers
  import opened JsonValue
  import opened Seqs
  import opened Compare
  import opened CommandSort
  import opened Command
  import opened Constants

  /** The properties every normalised command payload has. */
  const CanonicalKeys: set<string> := {
    "name", "name_localizations", "type", "description", "description_localizations",
    "default_member_permissions", "dm_permission", "options"}

  /** `transformOption(option)`: every property of the option is kept,
      `name_localizations` becomes the option's `nameLocalizations` or `{}`
      when that is nullish, and `description_localizations` copies
      `descriptionLocalizations`. Nested options are not transformed. */
  function TransformOption(o: Props): (r: Props)
    ensures r.Keys == o.Keys + {"name_localizations", "description_localizations"}
    ensures forall k | k in o && k != "name_localizations" && k != "description_localizations" :: r[k] == o[k]
    ensures Nullish(Prop(o, "nameLocalizations")) ==> r["name_localizations"] == Obj(map[])
    ensures !Nullish(Prop(o, "nameLocalizations")) ==> r["name_localizations"] == o["nameLocalizations"]
    ensures !Nullish(r["name_localizations"])
    ensures r["description_localizations"] == Prop(o, "descriptionLocalizations")
  {
    o["name_localizations" := Coalesce(Prop(o, "nameLocalizations"), Obj(map[]))]
     ["description_localizations" := Prop(o, "descriptionLocalizations")]
  }

  /** `defaultMemberPermissions?.toString()`: a missing value stays
      `undefined`; any other value becomes its text. A bit field (a bigint
      or a number) becomes its decimal string, a string is kept, and an
      object such as a `Permissions` bit field renders as a plain object. */
  function PermissionString(v: Json): (r: Json)
    ensures r == Undefined <==> Nullish(v)
    ensures !Nullish(v) ==> r.Str?
    ensures v.Int? ==> r == Str(IntToString(v.i))
    ensures v.Str? ==> r == v
    ensures v.Obj? ==> r == Str("[object Object]")
  {
    if Nullish(v) then Undefined else Str(ToText(v))
  }

  /** Whether the command's `options` are transformed: present and truthy. */
  predicate HasOptions(c: CommandObject) {
    "options" in c && Truthy(c["options"])
  }

  /** The transformed `options` of a command. */
  function TransformedOptions(c: CommandObject): (r: seq<Json>)
    ensures !HasOptions(c) ==> r == []
    ensures HasOptions(c) ==> |r| == |c["options"].items|
    ensures HasOptions(c) ==> forall i | 0 <= i < |r| ::
      r[i] == Obj(TransformOption(c["options"].items[i].fields))
  {
    if HasOptions(c) then
      var items := c["options"].items;
      seq(|items|, i requires 0 <= i < |items| => Obj(TransformOption(items[i].fields)))
    else []
  }

  /** The normalised payload of one command, local or remote. */
  function TransformCommand(c: CommandObject): (r: Props)
    ensures r.Keys == CanonicalKeys
    ensures r["name"] == Prop(c, "name") && r["type"] == Prop(c, "type")
    ensures r["name_localizations"] == Prop(c, "nameLocalizations")
    ensures "description" !in c ==> r["description"] == Str("")
    ensures "description" in c ==> r["description"] == c["description"]
    ensures "descriptionLocalizations" !in c || Nullish(c["descriptionLocalizations"]) ==>
      r["description_localizations"] == Obj(map[])
    ensures "descriptionLocalizations" in c && !Nullish(c["descriptionLocalizations"]) ==>
      r["description_localizations"] == c["descriptionLocalizations"]
    ensures r["default_member_permissions"] == PermissionString(Prop(c, "defaultMemberPermissions"))
    ensures r["dm_permission"] == Prop(c, "dmPermission")
    ensures r["options"] == Arr(TransformedOptions(c))
  {
    map[
      "name" := Prop(c, "name"),
      "name_localizations" := Prop(c, "nameLocalizations"),
      "type" := Prop(c, "type"),
      "description" := if "description" in c then c["description"] else Str(""),
      "description_localizations" :=
        if "descriptionLocalizations" in c then Coalesce(c["descriptionLocalizations"], Obj(map[]))
        else Obj(map[]),
      "default_member_permissions" := PermissionString(Prop(c, "defaultMemberPermissions")),
      "dm_permission" := Prop(c, "dmPermission"),
      "options" := Arr(TransformedOptions(c))]
  }

  function TransformPayload(c: CommandObject): Json {
    Obj(TransformCommand(c))
  }

  /** `transformCommands(commands)`: one payload per command, in order. */
  function TransformCommands(cmds: seq<CommandObject>): (r: seq<Json>)
    ensures |r| == |cmds|
    ensures forall i | 0 <= i < |cmds| :: r[i] == TransformPayload(cmds[i])
    ensures forall i | 0 <= i < |cmds| :: r[i].Obj? && r[i].fields.Keys == CanonicalKeys
  {
    MapSeq(TransformPayload, cmds)
  }

  /** The comparison deployOnChange makes: both sides normalised, sorted
      by name, and compared directionally, local against remote. */
  function PayloadsMatch(local: seq<CommandObject>, remote: seq<CommandObject>): bool {
    DeepCompare(Arr(SortCommands(TransformCommands(local))), Arr(SortCommands(TransformCommands(remote))))
  }

  /** `DeployOptions`: an absent `deployGlobally` is false. */
  datatype DeployOptions = DeployOptions(
    applicationId: string,
    token: string,
    deployGlobally: bool,
    guildId: Option<string>)

  /** `LocalDeployOptions | GlobalDeployOptions`: outside global mode a
      guild id is required. */
  predicate ValidDeployOptions(o: DeployOptions) {
    o.deployGlobally || o.guildId.Some?
  }

  /** The route baseDeployCommands pushes to: the global route exactly
      when deploying globally, the guild's route otherwise. */
  function DeployRoute(o: DeployOptions): (route: string)
    requires ValidDeployOptions(o)
    ensures route == GlobalDeployUrl(o.applicationId) <==> o.deployGlobally
    ensures !o.deployGlobally ==> route == GuildDeployUrl(o.applicationId, o.guildId.value)
  {
    if o.deployGlobally then GlobalDeployUrl(o.applicationId)
    else GuildDeployUrl(o.applicationId, o.guildId.value)
  }

  predicate KeepsGlobal(c: BaseCommand) {
    !c.dontDeployGlobally
  }

  /** The commands that are deployed: in global mode those marked
      `dontDeployGlobally` are left out, in guild mode all of them. */
  function DeployableCommands(cmds: seq<BaseCommand>, o: DeployOptions): (r: seq<BaseCommand>)
    ensures forall c | c in r :: c in cmds
    ensures o.deployGlobally ==> forall c | c in r :: !c.dontDeployGlobally
    ensures o.deployGlobally ==> forall c | c in cmds && !c.dontDeployGlobally :: c in r
    ensures !o.deployGlobally ==> r == cmds
    ensures o.deployGlobally ==> forall c ::
      multiset(r)[c] == if c.dontDeployGlobally then 0 else multiset(cmds)[c]
  {
    if o.deployGlobally then
      FilterKeepsPassing(KeepsGlobal, cmds);
      FilterCount(KeepsGlobal, cmds);
      Filter(KeepsGlobal, cmds)
    else cmds
  }

  /** `filter` keeps discovery order: the deployable commands of two
      consecutive runs of commands are those of the first run followed by
      those of the second. */
  lemma DeployableCommandsConcat(a: seq<BaseCommand>, b: seq<BaseCommand>, o: DeployOptions)
    ensures DeployableCommands(a + b, o) == DeployableCommands(a, o) + DeployableCommands(b, o)
  {
    if o.deployGlobally {
      FilterConcat(KeepsGlobal, a, b);
    }
  }

  /** A single command is deployable exactly once, unless a global deploy
      drops it. */
  lemma DeployableCommandsSingle(c: BaseCommand, o: DeployOptions)
    ensures DeployableCommands([c], o) == if o.deployGlobally && c.dontDeployGlobally then [] else [c]
  {
    assert [c][..0] == [];
  }

  lemma {:induction false} FilterKeepsPassing<A>(p: A -> bool, s: seq<A>)
    ensures forall x | x in s && p(x) :: x in Filter(p, s)
    decreases |s|
  {
    if |s| > 0 {
      FilterKeepsPassing(p, s[..|s| - 1]);
      assert s == s[..|s| - 1] + [s[|s| - 1]];
    }
  }

  /** The local commands as the objects transformCommands reads. */
  function LocalObjects(cmds: seq<BaseCommand>, o: DeployOptions): seq<CommandObject> {
    MapSeq(CommandProps, DeployableCommands(cmds, o))
  }

  /** A route and the payloads pushed there, replacing the remote set. */
  datatype Push = Push(route: string, body: seq<Json>)

  /** `deployCommands(options)`: the manual deploy always pushes the
      normalised commands, in discovery order. */
  function DeployCommands(discovered: seq<BaseCommand>, o: DeployOptions): (p: Push)
    requires ValidDeployOptions(o)
    ensures p.route == DeployRoute(o)
    ensures |p.body| == |DeployableCommands(discovered, o)|
    ensures forall i | 0 <= i < |p.body| ::
      p.body[i] == TransformPayload(CommandProps(DeployableCommands(discovered, o)[i]))
    ensures forall i | 0 <= i < |p.body| ::
      NameKey(p.body[i]) == DeployableCommands(discovered, o)[i].name
  {
    Push(DeployRoute(o), TransformCommands(LocalObjects(discovered, o)))
  }

  /** Distinct commands have distinct names. */
  predicate DistinctNames(cmds: seq<BaseCommand>) {
    forall i, j | 0 <= i < j < |cmds| :: cmds[i].name != cmds[j].name
  }

  /** The name a normalised local command is sorted by is its own name. */
  lemma LocalPayloadNames(cmds: seq<BaseCommand>, o: DeployOptions)
    ensures forall i | 0 <= i < |DeployableCommands(cmds, o)| ::
      NameKey(TransformCommands(LocalObjects(cmds, o))[i]) == DeployableCommands(cmds, o)[i].name
  {
  }

  lemma {:induction false} FilterDistinct(p: BaseCommand -> bool, s: seq<BaseCommand>)
    requires DistinctNames(s)
    ensures DistinctNames(Filter(p, s))
    decreases |s|
  {
    if |s| > 0 {
      var prefix := s[..|s| - 1];
      assert DistinctNames(prefix);
      FilterDistinct(p, prefix);
      forall x | x in Filter(p, prefix) ensures x.name != s[|s| - 1].name {
        var i :| 0 <= i < |prefix| && prefix[i] == x;
      }
    }
  }

  /** Distinct local names give distinct payload names. */
  lemma LocalPayloadsUnique(cmds: seq<BaseCommand>, o: DeployOptions)
    requires DistinctNames(cmds)
    ensures UniqueNames(TransformCommands(LocalObjects(cmds, o)))
  {
    if o.deployGlobally {
      FilterDistinct(KeepsGlobal, cmds);
    }
    LocalPayloadNames(cmds, o);
  }

  /** With distinct local names, the sorted local payloads ascend by name. */
  lemma SortedLocalAscending(local: seq<BaseCommand>, o: DeployOptions)
    ensures DistinctNames(local) ==>
      NamesAscending(SortCommands(TransformCommands(LocalObjects(local, o))))
  {
    if DistinctNames(local) {
      var transformedLocal := TransformCommands(LocalObjects(local, o));
      LocalPayloadsUnique(local, o);
      UniqueNamesEachNested(transformedLocal);
      SortByNameAscending(SortEachNested(transformedLocal));
    }
  }

  /** `deployOnChange(client, options)`: nothing is pushed when the sorted,
      normalised local payloads match the remote ones; otherwise the local
      payloads are pushed to the chosen route, in the sorted order the
      comparison left them in, sorted nested options included. */
  function DeployOnChange(local: seq<BaseCommand>, remote: seq<CommandObject>, o: DeployOptions): (r: Option<Push>)
    requires ValidDeployOptions(o)
    ensures r.None? <==> PayloadsMatch(LocalObjects(local, o), remote)
    ensures r.Some? ==> r.value.route == DeployRoute(o)
    ensures r.Some? ==> |r.value.body| == |DeployableCommands(local, o)|
    ensures r.Some? ==> multiset(r.value.body) == multiset(SortEachNested(TransformCommands(LocalObjects(local, o))))
    ensures r.Some? && DistinctNames(local) ==> NamesAscending(r.value.body)
  {
    var transformedLocal := TransformCommands(LocalObjects(local, o));
    if PayloadsMatch(LocalObjects(local, o), remote) then None
    else
      SortedLocalAscending(local, o);
      Some(Push(DeployRoute(o), SortCommands(transformedLocal)))
  }

  /** When the remote objects carry the same camelCase data properties as
      the deployable local commands, in any order, nothing is pushed. */
  lemma NoPushWhenRemoteMirrorsLocal(local: seq<BaseCommand>, remote: seq<CommandObject>, o: DeployOptions)
    requires ValidDeployOptions(o)
    requires DistinctNames(local)
    requires multiset(remote) == multiset(LocalObjects(local, o))
    ensures DeployOnChange(local, remote, o).None?
  {
    var tl := TransformCommands(LocalObjects(local, o));
    var te := TransformCommands(remote);
    MapSeqPermutation(TransformPayload, LocalObjects(local, o), remote);
    LocalPayloadsUnique(local, o);
    SortCommandsCanonical(tl, te);
    DeepCompareReflexive(Arr(SortCommands(tl)));
  }

  /** A remote set with a different number of commands always triggers a
      push. */
  lemma PushWhenCountsDiffer(local: seq<BaseCommand>, remote: seq<CommandObject>, o: DeployOptions)
    requires ValidDeployOptions(o)
    requires |remote| != |DeployableCommands(local, o)|
    ensures DeployOnChange(local, remote, o).Some?
  {
  }

  /** The order the local commands come in never changes the decision or
      the payload pushed. */
  lemma LocalOrderIrrelevant(local: seq<BaseCommand>, local': seq<BaseCommand>, remote: seq<CommandObject>, o: DeployOptions)
    requires ValidDeployOptions(o)
    requires DistinctNames(local)
    requires multiset(local) == multiset(local')
    ensures DeployOnChange(local, remote, o) == DeployOnChange(local', remote, o)
  {
    var d, d' := DeployableCommands(local, o), DeployableCommands(local', o);
    if o.deployGlobally {
      FilterPermutation(KeepsGlobal, local, local');
    }
    assert multiset(d) == multiset(d');
    MapSeqPermutation(CommandProps, d, d');
    MapSeqPermutation(TransformPayload, LocalObjects(local, o), LocalObjects(local', o));
    LocalPayloadsUnique(local, o);
    SortCommandsCanonical(TransformCommands(LocalObjects(local, o)), TransformCommands(LocalObjects(local', o)));
  }

  /** The order the remote commands come in never changes the decision,
      given that their payload names are unique. */
  lemma RemoteOrderIrrelevant(local: seq<BaseCommand>, remote: seq<CommandObject>, remote': seq<CommandObject>, o: DeployOptions)
    requires ValidDeployOptions(o)
    requires UniqueNames(TransformCommands(remote))
    requires multiset(remote) == multiset(remote')
    ensures DeployOnChange(local, remote, o) == DeployOnChange(local, remote', o)
  {
    MapSeqPermutation(TransformPayload, remote, remote');
    SortCommandsCanonical(TransformCommands(remote), TransformCommands(remote'));
  }

  /** In global mode no pushed payload carries the name of a command
      marked `dontDeployGlobally`. */
  lemma GlobalPushExcludesGuildOnly(local: seq<BaseCommand>, remote: seq<CommandObject>, o: DeployOptions, c: BaseCommand)
    requires ValidDeployOptions(o) && o.deployGlobally
    requires DistinctNames(local)
    requires c in local && c.dontDeployGlobally
    requires DeployOnChange(local, remote, o).Some?
    ensures forall y | y in DeployOnChange(local, remote, o).value.body :: NameKey(y) != c.name
  {
    var nested := SortEachNested(TransformCommands(LocalObjects(local, o)));
    NestedPayloadsExclude(local, o, c);
    forall y | y in DeployOnChange(local, remote, o).value.body ensures NameKey(y) != c.name {
      assert y in multiset(nested);
    }
  }

  /** Before the final sort, no normalised payload of a global deploy
      carries the name of a guild-only command. */
  lemma NestedPayloadsExclude(local: seq<BaseCommand>, o: DeployOptions, c: BaseCommand)
    requires o.deployGlobally
    requires DistinctNames(local)
    requires c in local && c.dontDeployGlobally
    ensures forall y | y in SortEachNested(TransformCommands(LocalObjects(local, o))) :: NameKey(y) != c.name
  {
    var d := DeployableCommands(local, o);
    var t := TransformCommands(LocalObjects(local, o));
    var nested := SortEachNested(t);
    LocalPayloadNames(local, o);
    DeployableExcludes(local, o, c);
    forall y | y in nested ensures NameKey(y) != c.name {
      var i :| 0 <= i < |nested| && nested[i] == y;
      assert NameKey(y) == NameKey(t[i]) by {
        assert nested[i] == SortNested(t[i]);
      }
      assert NameKey(t[i]) == d[i].name;
    }
  }


  /** In a global deploy no deployable command shares its name with a
      guild-only command, given distinct names. */
  lemma DeployableExcludes(local: seq<BaseCommand>, o: DeployOptions, c: BaseCommand)
    requires o.deployGlobally
    requires DistinctNames(local)
    requires c in local && c.dontDeployGlobally
    ensures forall i | 0 <= i < |DeployableCommands(local, o)| :: DeployableCommands(local, o)[i].name != c.name
  {
    var d := DeployableCommands(local, o);
    forall i | 0 <= i < |d| ensures d[i].name != c.name {
      assert d[i] in d;
      var a :| 0 <= a < |local| && local[a] == d[i];
      var b :| 0 <= b < |local| && local[b] == c;
      assert a != b;
    }
  }


  /** The camelCase properties the normaliser reads. */
  const SourceKeys: set<string> := {
    "name", "nameLocalizations", "type", "description", "descriptionLocalizations",
    "defaultMemberPermissions", "dmPermission", "options"}

  /** The normaliser reads nothing but its eight source properties: two
      commands that agree on those normalise to the same payload, whatever
      else they carry. */
  lemma TransformReadsOnlySourceKeys(a: CommandObject, b: CommandObject)
    requires forall k | k in SourceKeys :: (k in a <==> k in b) && (k in a ==> a[k] == b[k])
    ensures TransformCommand(a) == TransformCommand(b)
  {
    forall k | k in SourceKeys ensures Prop(a, k) == Prop(b, k) && (k in a <==> k in b) {
    }
    assert "description" in SourceKeys && "descriptionLocalizations" in SourceKeys;
    assert TransformedOptions(a) == TransformedOptions(b) by {
      assert "options" in SourceKeys;
    }
  }

  /** `{name: "ping"}` locally and `{name: "ping", dm_permission: true}`
      remotely match: the normaliser drops the unknown snake_case
      property. */
  lemma PingFixtureMatches()
    ensures PayloadsMatch([map["name" := Str("ping")]],
                          [map["name" := Str("ping"), "dm_permission" := Bool(true)]])
  {
    var a: CommandObject := map["name" := Str("ping")];
    var b: CommandObject := map["name" := Str("ping"), "dm_permission" := Bool(true)];
    TransformReadsOnlySourceKeys(a, b);
    assert TransformCommands([a]) == TransformCommands([b]);
    DeepCompareReflexive(Arr(SortCommands(TransformCommands([a]))));
  }

  lemma SinglePayloadSorted(c: CommandObject)
    requires !HasOptions(c)
    ensures SortCommands(TransformCommands([c])) == [TransformPayload(c)]
  {
    var p := TransformCommand(c);
    assert TransformCommands([c]) == [Obj(p)];
    assert p["options" := Arr(SortCommands([]))] == p;
    SortCommandsSingleton(Obj(p));
  }

  /** A command without `dmPermission` never matches one whose
      `dmPermission` is true. */
  lemma PermissionMismatch(a: CommandObject, b: CommandObject)
    requires Prop(a, "dmPermission") == Undefined && Prop(b, "dmPermission") == Bool(true)
    ensures !DeepCompare(TransformPayload(a), TransformPayload(b))
  {
    var pa, pb := TransformCommand(a), TransformCommand(b);
    PropertyMismatchFails(pa, pb, "dm_permission");
  }

  /** The camelCase `dmPermission: true` is normalised, so a remote
      `{name: "ping", dmPermission: true}` no longer matches the local
      `{name: "ping"}`, whose permission is `undefined`. */
  lemma PingFixtureDiffers()
    ensures !PayloadsMatch([map["name" := Str("ping")]],
                           [map["name" := Str("ping"), "dmPermission" := Bool(true)]])
  {
    var a: CommandObject := map["name" := Str("ping")];
    var b: CommandObject := map["name" := Str("ping"), "dmPermission" := Bool(true)];
    SinglePayloadSorted(a);
    SinglePayloadSorted(b);
    PermissionMismatch(a, b);
    SingletonArrays(TransformPayload(a), TransformPayload(b));
  }

  /** The remote end must report commands with the local commands'
      camelCase data properties. Handing back the normalised payload
      itself is not enough: the normaliser reads `dmPermission`, which
      that payload only holds as `dm_permission`, so a local command with
      `dmPermission: true` is pushed again. */
  lemma SnakeCaseEchoPushes(a: CommandObject, b: CommandObject)
    requires !HasOptions(a) && Prop(a, "dmPermission") == Bool(true)
    requires b == TransformCommand(a)
    ensures !PayloadsMatch([a], [b])
  {
    SinglePayloadSorted(a);
    assert "options" in b && b["options"] == Arr([]);
    EmptyOptionsPayloadSorted(b);
    assert !DeepCompare(TransformPayload(a), TransformPayload(b)) by {
      assert Prop(b, "dmPermission") == Undefined;
      PropertyMismatchFails(TransformCommand(a), TransformCommand(b), "dm_permission");
    }
    SingletonArrays(TransformPayload(a), TransformPayload(b));
  }

  /** A payload whose `options` is the empty list is already sorted. */
  lemma EmptyOptionsPayloadSorted(c: CommandObject)
    requires "options" in c && c["options"] == Arr([])
    ensures SortCommands(TransformCommands([c])) == [TransformPayload(c)]
  {
    var p := TransformPayload(c);
    assert TransformedOptions(c) == [];
    assert SortNested(p) == p by {
      assert SortCommands([]) == [];
      assert p.fields["options" := Arr([])] == p.fields;
    }
    SortCommandsSingleton(p);
    assert TransformCommands([c]) == [p];
  }
}

=== FILE: command_sort.dfy ===
/** `sortCommands` (lib/util/commandDeployment.ts): orders command payloads
    by name, after ordering every nested `options` list the same way. */
module CommandSort {
  import opened JsonValue
  import opened StringOrder
  import opened Seqs

  /** The name a payload is sorted by: its string `name` property. */
  function NameKey(c: Json): string {
    if c.Obj? && "name" in c.fields && c.fields["name"].Str? then c.fields["name"].s else ""
  }

  predicate NamesAscending(s: seq<Json>) {
    forall i, j | 0 <= i < j < |s| :: StrLt(NameKey(s[i]), NameKey(s[j]))
  }

  predicate UniqueNames(s: seq<Json>) {
    forall i, j | 0 <= i < j < |s| :: NameKey(s[i]) != NameKey(s[j])
  }

  /** The `options` list of a payload whose `options` property is an array. */
  function NestedOptions(c: Json): (r: seq<Json>)
    requires HasOptionsList(c)
  {
    c.fields["options"].items
  }

  predicate HasOptionsList(c: Json) {
    c.Obj? && "options" in c.fields && c.fields["options"].Arr?
  }

  /** Inserts `x` before the first element whose name is greater. */
  function InsertByName(x: Json, s: seq<Json>): (r: seq<Json>)
    ensures multiset(r) == multiset(s) + multiset{x}
    ensures |r| == |s| + 1
  {
    if |s| == 0 || StrLt(NameKey(x), NameKey(s[0])) then [x] + s
    else
      assert s == [s[0]] + s[1..];
      [s[0]] + InsertByName(x, s[1..])
  }

  /** The comparator of sortCommands: `a` goes before `b` when its name is
      smaller. */
  function SortByName(s: seq<Json>): (r: seq<Json>)
    ensures multiset(r) == multiset(s)
    ensures |r| == |s|
  {
    if |s| == 0 then []
    else
      assert s == [s[0]] + s[1..];
      InsertByName(s[0], SortByName(s[1..]))
  }

  /** Inserting a payload whose name is new into a list sorted by name
      keeps it sorted. */
  lemma {:induction false} InsertKeepsAscending(x: Json, s: seq<Json>)
    requires NamesAscending(s)
    requires forall y | y in s :: NameKey(y) != NameKey(x)
    ensures NamesAscending(InsertByName(x, s))
    decreases |s|
  {
    if |s| == 0 {
    } else if StrLt(NameKey(x), NameKey(s[0])) {
      forall j | 1 <= j < |s| ensures StrLt(NameKey(x), NameKey(s[j])) {
        StrLtTransitive(NameKey(x), NameKey(s[0]), NameKey(s[j]));
      }
    } else {
      var rest := InsertByName(x, s[1..]);
      assert NamesAscending(s[1..]);
      InsertKeepsAscending(x, s[1..]);
      StrLtTotal(NameKey(x), NameKey(s[0]));
      HeadBelowInserted(x, s);
      PrependAscending(s[0], rest);
    }
  }

  /** The head of a sorted list stays below everything in the rest of the
      list once `x`, whose name is greater, is inserted there. */
  lemma HeadBelowInserted(x: Json, s: seq<Json>)
    requires |s| > 0 && NamesAscending(s)
    requires StrLt(NameKey(s[0]), NameKey(x))
    ensures forall y | y in InsertByName(x, s[1..]) :: StrLt(NameKey(s[0]), NameKey(y))
  {
    var rest := InsertByName(x, s[1..]);
    forall y | y in rest ensures StrLt(NameKey(s[0]), NameKey(y)) {
      assert y in multiset(rest);
      if y != x {
        assert y in multiset(s[1..]);
        var m :| 0 <= m < |s[1..]| && s[1..][m] == y;
        assert s[m + 1] == y;
      }
    }
  }

  lemma PrependAscending(h: Json, s: seq<Json>)
    requires NamesAscending(s)
    requires forall y | y in s :: StrLt(NameKey(h), NameKey(y))
    ensures NamesAscending([h] + s)
  {
    var r := [h] + s;
    forall i, j | 0 <= i < j < |r| ensures StrLt(NameKey(r[i]), NameKey(r[j])) {
      assert r[j] == s[j - 1];
      if i > 0 {
        assert r[i] == s[i - 1];
      }
    }
  }

  /** Given unique names, sorting leaves the names strictly ascending. */
  lemma {:induction false} SortByNameAscending(s: seq<Json>)
    requires UniqueNames(s)
    ensures NamesAscending(SortByName(s))
    decreases |s|
  {
    if |s| > 0 {
      var rest := SortByName(s[1..]);
      SortByNameAscending(s[1..]);
      forall y | y in rest ensures NameKey(y) != NameKey(s[0]) {
        assert y in multiset(s[1..]);
        var m :| 0 <= m < |s[1..]| && s[1..][m] == y;
        assert s[m + 1] == y;
      }
      InsertKeepsAscending(s[0], rest);
    }
  }

  /** Two lists sorted by strictly ascending names that hold the same
      payloads are the same list. */
  lemma {:induction false} AscendingPermutationsEqual(s: seq<Json>, t: seq<Json>)
    requires NamesAscending(s) && NamesAscending(t)
    requires multiset(s) == multiset(t)
    ensures s == t
    decreases |s|
  {
    if |s| == 0 {
      assert |t| == |multiset(t)| == 0;
    } else {
      assert |t| == |multiset(t)| == |s|;
      AscendingHeadsEqual(s, t);
      TailsPermutation(s, t);
      assert NamesAscending(s[1..]) && NamesAscending(t[1..]);
      AscendingPermutationsEqual(s[1..], t[1..]);
      assert s == [s[0]] + s[1..] && t == [t[0]] + t[1..];
    }
  }

  /** Two sorted lists holding the same payloads start with the same one. */
  lemma AscendingHeadsEqual(s: seq<Json>, t: seq<Json>)
    requires NamesAscending(s) && NamesAscending(t)
    requires multiset(s) == multiset(t)
    requires |s| > 0 && |t| > 0
    ensures s[0] == t[0]
  {
    assert s[0] in multiset(t);
    assert t[0] in multiset(s);
    var j :| 0 <= j < |t| && t[j] == s[0];
    var i :| 0 <= i < |s| && s[i] == t[0];
    if s[0] != t[0] {
      assert StrLt(NameKey(t[0]), NameKey(s[0]));
      StrLtAsymmetric(NameKey(t[0]), NameKey(s[0]));
    }
  }

  lemma TailsPermutation(s: seq<Json>, t: seq<Json>)
    requires |s| > 0 && |t| > 0 && s[0] == t[0]
    requires multiset(s) == multiset(t)
    ensures multiset(s[1..]) == multiset(t[1..])
  {
    assert s == [s[0]] + s[1..] && t == [t[0]] + t[1..];
    calc {
      multiset(s[1..]);
      multiset(s) - multiset{s[0]};
      multiset(t) - multiset{t[0]};
      multiset(t[1..]);
    }
  }

  /** A list with unique names holds each payload at most once. */
  lemma {:induction false} UniqueNamesOccurOnce(s: seq<Json>, v: Json)
    requires UniqueNames(s)
    ensures multiset(s)[v] <= 1
    decreases |s|
  {
    if |s| > 0 {
      assert s == [s[0]] + s[1..];
      assert UniqueNames(s[1..]);
      UniqueNamesOccurOnce(s[1..], v);
    }
  }

  /** A payload found at two positions occurs at least twice. */
  lemma TwoPositionsCount(t: seq<Json>, i: int, j: int)
    requires 0 <= i < j < |t| && t[i] == t[j]
    ensures multiset(t)[t[i]] >= 2
  {
    assert t == t[..j] + [t[j]] + t[j + 1..];
    assert t[i] in t[..j];
  }

  /** Any reordering of a list with unique names has unique names. */
  lemma UniqueNamesPermutation(s: seq<Json>, t: seq<Json>)
    requires UniqueNames(s)
    requires multiset(s) == multiset(t)
    ensures UniqueNames(t)
  {
    SortByNameAscending(s);
    var sorted := SortByName(s);
    forall i, j | 0 <= i < j < |t| ensures NameKey(t[i]) != NameKey(t[j]) {
      assert t[i] in multiset(sorted) && t[j] in multiset(sorted);
      var p :| 0 <= p < |sorted| && sorted[p] == t[i];
      var q :| 0 <= q < |sorted| && sorted[q] == t[j];
      if p == q {
        TwoPositionsCount(t, i, j);
        UniqueNamesOccurOnce(s, t[i]);
        assert false;
      } else if p < q {
        StrLtIrreflexive(NameKey(t[i]));
      } else {
        StrLtIrreflexive(NameKey(t[j]));
      }
    }
  }

  /** Sorting is insensitive to the order of its input, given unique
      names. */
  lemma SortByNameCanonical(s: seq<Json>, t: seq<Json>)
    requires UniqueNames(s)
    requires multiset(s) == multiset(t)
    ensures SortByName(s) == SortByName(t)
  {
    UniqueNamesPermutation(s, t);
    SortByNameAscending(s);
    SortByNameAscending(t);
    AscendingPermutationsEqual(SortByName(s), SortByName(t));
  }

  /** `sortCommands(commands)`: every nested `options` list is sorted first,
      then the list itself is sorted by name. */
  function SortCommands(cmds: seq<Json>): (r: seq<Json>)
    ensures |r| == |cmds|
    ensures multiset(r) == multiset(SortEachNested(cmds))
    decreases cmds, 1
  {
    SortByName(SortEachNested(cmds))
  }

  /** The loop of sortCommands over the list's payloads. */
  function SortEachNested(cmds: seq<Json>): (r: seq<Json>)
    ensures |r| == |cmds|
    ensures forall i | 0 <= i < |cmds| :: r[i] == SortNested(cmds[i])
    decreases cmds, 0
  {
    if |cmds| == 0 then [] else [SortNested(cmds[0])] + SortEachNested(cmds[1..])
  }

  /** A payload whose `options` is an array gets that array sorted in place;
      any other value is left as it is. Every other property keeps its
      value. */
  function SortNested(c: Json): (r: Json)
    ensures NameKey(r) == NameKey(c)
    ensures HasOptionsList(r) <==> HasOptionsList(c)
    ensures !HasOptionsList(c) ==> r == c
    ensures HasOptionsList(c) ==> r.fields.Keys == c.fields.Keys
    ensures HasOptionsList(c) ==> forall k | k in c.fields && k != "options" :: r.fields[k] == c.fields[k]
    ensures HasOptionsList(c) ==> |NestedOptions(r)| == |NestedOptions(c)|
    decreases c
  {
    if HasOptionsList(c) then Obj(c.fields["options" := Arr(SortCommands(NestedOptions(c)))])
    else c
  }

  /** Sorting only reorders: the new `options` list holds the old
      options, each sorted in turn. */
  lemma SortNestedOnlyReorders(c: Json)
    requires HasOptionsList(c)
    ensures multiset(NestedOptions(SortNested(c))) == multiset(SortEachNested(NestedOptions(c)))
  {
    assert NestedOptions(SortNested(c)) == SortCommands(NestedOptions(c));
  }

  /** Names are unique in the list and, recursively, in every nested
      `options` list. */
  ghost predicate DeepUnique(cmds: seq<Json>)
    decreases cmds, 1
  {
    UniqueNames(cmds) && forall i | 0 <= i < |cmds| :: EntryDeepUnique(cmds[i])
  }

  ghost predicate EntryDeepUnique(c: Json)
    decreases c, 0
  {
    HasOptionsList(c) ==> DeepUnique(NestedOptions(c))
  }

  /** Names ascend in the list and, recursively, in every nested `options`
      list. */
  ghost predicate DeepAscending(cmds: seq<Json>)
    decreases cmds, 1
  {
    NamesAscending(cmds) && forall i | 0 <= i < |cmds| :: EntryDeepAscending(cmds[i])
  }

  ghost predicate EntryDeepAscending(c: Json)
    decreases c, 0
  {
    HasOptionsList(c) ==> DeepAscending(NestedOptions(c))
  }

  lemma UniqueNamesEachNested(cmds: seq<Json>)
    requires UniqueNames(cmds)
    ensures UniqueNames(SortEachNested(cmds))
  {
  }

  /** Given unique names at every level, sortCommands leaves every level,
      the outer list and each nested `options` list, in ascending name
      order. */
  lemma {:induction false} SortCommandsDeepAscending(cmds: seq<Json>)
    requires DeepUnique(cmds)
    ensures DeepAscending(SortCommands(cmds))
    decreases cmds, 1
  {
    var nested := SortEachNested(cmds);
    UniqueNamesEachNested(cmds);
    SortByNameAscending(nested);
    var r := SortCommands(cmds);
    forall j | 0 <= j < |r| ensures EntryDeepAscending(r[j]) {
      assert r[j] in multiset(nested);
      var i :| 0 <= i < |nested| && nested[i] == r[j];
      SortNestedDeepAscending(cmds[i]);
    }
  }

  lemma {:induction false} SortNestedDeepAscending(c: Json)
    requires EntryDeepUnique(c)
    ensures EntryDeepAscending(SortNested(c))
    decreases c, 0
  {
    if HasOptionsList(c) {
      SortCommandsDeepAscending(NestedOptions(c));
    }
  }

  /** With unique names, sortCommands gives the same result for every
      ordering of its input. */
  lemma SortCommandsCanonical(s: seq<Json>, t: seq<Json>)
    requires UniqueNames(s)
    requires multiset(s) == multiset(t)
    ensures SortCommands(s) == SortCommands(t)
  {
    UniqueNamesEachNested(s);
    assert SortEachNested(s) == MapSeq(SortNested, s);
    assert SortEachNested(t) == MapSeq(SortNested, t);
    MapSeqPermutation(SortNested, s, t);
    SortByNameCanonical(SortEachNested(s), SortEachNested(t));
  }

  /** A single payload is only sorted inside. */
  lemma SortCommandsSingleton(x: Json)
    ensures SortCommands([x]) == [SortNested(x)]
  {
    assert SortEachNested([x]) == [SortNested(x)];
  }
}

=== FILE: constants.dfy ===
/** The deploy routes of the platform's command API
    (lib/util/constants.ts). */
module Constants {

  predicate StartsWith(s: string, prefix: string) {
    |prefix| <= |s| && s[..|prefix|] == prefix
  }

  predicate EndsWith(s: string, suffix: string) {
    |suffix| <= |s| && s[|s| - |suffix|..] == suffix
  }

  /** `GLOBAL_DEPLOY_URL(applicationId)`: the application's global command
      set. */
  function GlobalDeployUrl(applicationId: string): (url: string)
    ensures StartsWith(url, "/applications/" + applicationId + "/")
    ensures EndsWith(url, "/commands")
    ensures |url| == |applicationId| + 23
  {
    "/applications/" + applicationId + "/commands"
  }

  /** `GUILD_DEPLOY_URL(applicationId, guildId)`: the command set of one
      guild. It is never the global route of the same application. */
  function GuildDeployUrl(applicationId: string, guildId: string): (url: string)
    ensures StartsWith(url, "/applications/" + applicationId + "/guilds/" + guildId + "/")
    ensures EndsWith(url, "/commands")
    ensures |url| == |applicationId| + |guildId| + 31
    ensures url != GlobalDeployUrl(applicationId)
  {
    "/applications/" + applicationId + "/guilds/" + guildId + "/commands"
  }

  /** Different applications have different global routes. */
  lemma GlobalDeployUrlInjective(a: string, b: string)
    requires GlobalDeployUrl(a) == GlobalDeployUrl(b)
    ensures a == b
  {
    var u := GlobalDeployUrl(a);
    assert u[14..|u| - 9] == a;
    assert GlobalDeployUrl(b)[14..|u| - 9] == b;
  }

  /** Different guilds of one application have different routes. */
  lemma GuildDeployUrlInjective(applicationId: string, g: string, h: string)
    requires GuildDeployUrl(applicationId, g) == GuildDeployUrl(applicationId, h)
    ensures g == h
  {
    var u := GuildDeployUrl(applicationId, g);
    var start := 14 + |applicationId| + 8;
    assert u[start..|u| - 9] == g;
    assert GuildDeployUrl(applicationId, h)[start..|u| - 9] == h;
  }
}

=== FILE: deep_compare.dfy ===
/** The directional structural comparison that decides whether the remote
    command set already matches the local one (lib/util/deepCompare.ts). */
module Compare {
  import opened Wrappers
  import opened JsonValue

  /** `deepCompare(a, b)`: every property of `a` is present in `b` and
      compares equal there; arrays of the same kind compare position by
      position; extra properties of `b` are ignored. */
  function DeepCompare(a: Json, b: Json): (r: bool)
    ensures SameValue(a, b) ==> r
    ensures !SameValue(a, b) && (!Truthy(a) || !Truthy(b)) ==> !r
    ensures a.Arr? && b.Arr? && |a.items| != |b.items| ==> !r
    ensures r && !SameValue(a, b) ==> IsObject(a) && IsObject(b)
    decreases a
  {
    if SameValue(a, b) then true
    else if !Truthy(a) || !Truthy(b) then false
    else if a.Arr? && b.Arr? then
      |a.items| == |b.items| &&
      forall i | 0 <= i < |a.items| :: DeepCompare(a.items[i], b.items[i])
    else if IsObject(a) && IsObject(b) then
      match a
      case Obj(f) =>
        forall k | k in f :: Lookup(b, k).Some? && DeepCompare(f[k], Lookup(b, k).value)
      case Arr(xs) =>
        forall i | 0 <= i < |xs| ::
          Lookup(b, IndexKey(i)).Some? && DeepCompare(xs[i], Lookup(b, IndexKey(i)).value)
    else false
  }

  /** Every value compares equal to itself. */
  lemma {:induction false} DeepCompareReflexive(x: Json)
    ensures DeepCompare(x, x)
    decreases x
  {
    match x
    case Arr(xs) =>
      forall i | 0 <= i < |xs| ensures DeepCompare(xs[i], xs[i]) {
        DeepCompareReflexive(xs[i]);
      }
    case Obj(f) =>
      forall k | k in f ensures DeepCompare(f[k], f[k]) {
        DeepCompareReflexive(f[k]);
      }
    case _ =>
  }

  /** Two objects compare equal exactly when every key of the first is in
      the second with a value that compares equal. */
  lemma ObjectComparison(f: Props, g: Props)
    ensures DeepCompare(Obj(f), Obj(g)) <==> forall k | k in f :: k in g && DeepCompare(f[k], g[k])
  {
  }

  /** Two arrays compare equal exactly when they have the same length and
      compare equal position by position. */
  lemma ArrayComparison(xs: seq<Json>, ys: seq<Json>)
    ensures DeepCompare(Arr(xs), Arr(ys)) <==>
      |xs| == |ys| && forall i | 0 <= i < |xs| :: DeepCompare(xs[i], ys[i])
  {
  }

  /** Extra properties of the second object never cause a mismatch: an
      object compares equal to any object that extends it. */
  lemma ExtraPropertiesIgnored(f: Props, g: Props)
    requires forall k | k in f :: k in g && g[k] == f[k]
    ensures DeepCompare(Obj(f), Obj(g))
  {
    forall k | k in f ensures DeepCompare(f[k], g[k]) {
      DeepCompareReflexive(f[k]);
    }
  }

  /** A property of the first object that the second object lacks is
      always a mismatch, whatever the values. */
  lemma MissingPropertyFails(f: Props, g: Props, k: string)
    requires k in f && k !in g
    ensures !DeepCompare(Obj(f), Obj(g))
  {
  }

  /** A property both objects have but whose values do not compare equal
      is a mismatch. */
  lemma PropertyMismatchFails(f: Props, g: Props, k: string)
    requires k in f && k in g && !DeepCompare(f[k], g[k])
    ensures !DeepCompare(Obj(f), Obj(g))
  {
  }

  /** One-element arrays compare as their elements do. */
  lemma SingletonArrays(x: Json, y: Json)
    ensures DeepCompare(Arr([x]), Arr([y])) == DeepCompare(x, y)
  {
    ArrayComparison([x], [y]);
    assert [x][0] == x && [y][0] == y;
  }

  /** The object with the same index keys as an array. */
  ghost function IndexObject(xs: seq<Json>): (m: Props)
    ensures forall i | 0 <= i < |xs| :: IndexKey(i) in m && m[IndexKey(i)] == xs[i]
    ensures forall k | k in m :: exists i | 0 <= i < |xs| :: k == IndexKey(i)
  {
    forall i, j | 0 <= i < |xs| && 0 <= j < |xs| && IndexKey(i) == IndexKey(j) ensures i == j {
      NatToStringInjective(i, j);
    }
    map i | 0 <= i < |xs| :: IndexKey(i) := xs[i]
  }

  /** An array and a non-array object fall into the object branch and are
      compared by index keys, so an array and the object holding the same
      elements under its index keys compare equal in both directions. */
  lemma ArrayMatchesIndexObject(xs: seq<Json>)
    ensures DeepCompare(Arr(xs), Obj(IndexObject(xs)))
    ensures DeepCompare(Obj(IndexObject(xs)), Arr(xs))
  {
    ArrayAgainstIndexObject(xs);
    IndexObjectAgainstArray(xs);
  }

  lemma ArrayAgainstIndexObject(xs: seq<Json>)
    ensures DeepCompare(Arr(xs), Obj(IndexObject(xs)))
  {
    var m := IndexObject(xs);
    forall i | 0 <= i < |xs| ensures Lookup(Obj(m), IndexKey(i)) == Some(xs[i]) && DeepCompare(xs[i], xs[i]) {
      DeepCompareReflexive(xs[i]);
    }
  }

  lemma IndexObjectAgainstArray(xs: seq<Json>)
    ensures DeepCompare(Obj(IndexObject(xs)), Arr(xs))
  {
    var m := IndexObject(xs);
    forall k | k in m ensures Lookup(Arr(xs), k).Some? && DeepCompare(m[k], Lookup(Arr(xs), k).value) {
      var i :| 0 <= i < |xs| && k == IndexKey(i);
      FindIndexOfKey(xs, i, 0);
      DeepCompareReflexive(xs[i]);
    }
  }

  /** An array against a plain object: every index of the array must be a
      key of the object holding a matching value. */
  lemma ArrayAgainstObject(xs: seq<Json>, g: Props)
    ensures DeepCompare(Arr(xs), Obj(g)) <==>
      forall i | 0 <= i < |xs| :: IndexKey(i) in g && DeepCompare(xs[i], g[IndexKey(i)])
  {
  }

  /** A plain object against an array: every key of the object must be
      `length` with the array's length as a matching value, or an index of
      the array whose element it matches. */
  lemma ObjectAgainstArray(f: Props, xs: seq<Json>)
    ensures DeepCompare(Obj(f), Arr(xs)) <==>
      forall k | k in f :: ArrayEntryMatches(f[k], xs, k)
  {
    forall k | k in f
      ensures (Lookup(Arr(xs), k).Some? && DeepCompare(f[k], Lookup(Arr(xs), k).value))
              <==> ArrayEntryMatches(f[k], xs, k)
    {
      if k != "length" {
        if Lookup(Arr(xs), k).Some? {
          var i :| 0 <= i < |xs| && IndexKey(i) == k && Lookup(Arr(xs), k).value == xs[i];
        }
        if exists i | 0 <= i < |xs| :: k == IndexKey(i) {
          var i :| 0 <= i < |xs| && k == IndexKey(i);
          FindIndexOfKey(xs, i, 0);
          forall j | 0 <= j < |xs| && k == IndexKey(j) ensures j == i {
            NatToStringInjective(i, j);
          }
        }
      }
    }
  }

  /** The array `xs` read under `k` holds a value `v` matches: `k` is
      `length` and `v` matches the length, or `k` is an index whose element
      `v` matches. */
  predicate ArrayEntryMatches(v: Json, xs: seq<Json>, k: string) {
    || (k == "length" && DeepCompare(v, Int(|xs|)))
    || (exists i | 0 <= i < |xs| :: k == IndexKey(i) && DeepCompare(v, xs[i]))
  }

  /** The comparison is not transitive: `[1]` matches `{"0": 1}`, which
      matches `[1, 2]`, yet arrays of different lengths never match. */
  lemma NotTransitive()
    ensures DeepCompare(Arr([Int(1)]), Obj(map["0" := Int(1)]))
    ensures DeepCompare(Obj(map["0" := Int(1)]), Arr([Int(1), Int(2)]))
    ensures !DeepCompare(Arr([Int(1)]), Arr([Int(1), Int(2)]))
  {
    assert IndexKey(0) == "0";
    assert Lookup(Obj(map["0" := Int(1)]), IndexKey(0)) == Some(Int(1));
    assert Lookup(Arr([Int(1), Int(2)]), "0") == Some(Int(1));
  }

  /** `{name: "ping"}` matches `{name: "ping", dm_permission: true}`, but
      not the other way round. */
  lemma DirectionalFixture()
    ensures DeepCompare(Obj(map["name" := Str("ping")]),
                        Obj(map["name" := Str("ping"), "dm_permission" := Bool(true)]))
    ensures !DeepCompare(Obj(map["name" := Str("ping"), "dm_permission" := Bool(true)]),
                         Obj(map["name" := Str("ping")]))
  {
    ExtraPropertiesIgnored(map["name" := Str("ping")],
                           map["name" := Str("ping"), "dm_permission" := Bool(true)]);
    MissingPropertyFails(map["name" := Str("ping"), "dm_permission" := Bool(true)],
                         map["name" := Str("ping")], "dm_permission");
  }
}

=== FILE: dispatch.dfy ===
/** Interaction dispatch, in its two versions: the listener of
    lib/util/interactionListener.ts, which skips malformed subcommand tree
    entries, and the listener `Iubus` installs (lib/structures/Iubus.ts),
    which throws on them. Each call of a handler is recorded, in order, in
    a trace; awaiting is not modelled. */
module Dispatch {
  import opened Wrappers
  import opened Inhibitors
  import opened Command
  import LegacyCommand
  import opened Collections

  /** The kinds of interaction the listeners tell apart. */
  datatype InteractionKind =
    | AutocompleteInteraction
    | ChatInputInteraction
    | UserContextInteraction
    | MessageContextInteraction
    | OtherInteraction   // buttons, select menus, modals, ...

  /** An interaction: its kind, the command it names, and the subcommand
      and group names it carries (`getSubcommand(false)` and
      `getSubcommandGroup(false)`, absent when null). */
  datatype Interaction = Interaction(
    kind: InteractionKind,
    commandName: string,
    subcommand: Option<string>,
    subcommandGroup: Option<string>)

  /** A subcommand or group name that is present and non-empty, i.e.
      truthy. */
  predicate Present(name: Option<string>) {
    name.Some? && name.value != ""
  }

  /** `isAutocomplete() || isCommand()`. */
  predicate Handled(i: Interaction) {
    !i.kind.OtherInteraction?
  }

  /** What reading a property of a subcommand tree, or of a group in it,
      yields. A tree and its groups are plain objects: a name that is not
      one of their own keys reads through to `Object.prototype`, whose
      members with lower-case names (the only names a command may use) are
      `constructor`, the built-in `Object` function, and `__proto__`,
      `Object.prototype` itself, whose own `__proto__` is null. */
  datatype Property =
    | NoProperty
    | AuthorMethod(handler: Handler)
    | AuthorGroup(members: map<string, Handler>)
    | ObjectFunction
    | ObjectPrototype
    | NullProperty

  /** A property a plain object inherits under `name`. Every other
      member of `Object.prototype` has an upper-case letter in its name and
      reads as undefined here. */
  function Inherited(name: string): (p: Property)
    ensures p.ObjectFunction? <==> name == "constructor"
    ensures p.ObjectPrototype? <==> name == "__proto__"
    ensures p.NoProperty? <==> name != "constructor" && name != "__proto__"
  {
    if name == "constructor" then ObjectFunction
    else if name == "__proto__" then ObjectPrototype
    else NoProperty
  }

  /** `Object.prototype[name]`. */
  function PrototypeProperty(name: string): (p: Property)
    ensures p.ObjectFunction? <==> name == "constructor"
    ensures p.NullProperty? <==> name == "__proto__"
    ensures p.NoProperty? <==> name != "constructor" && name != "__proto__"
  {
    if name == "constructor" then ObjectFunction
    else if name == "__proto__" then NullProperty
    else NoProperty
  }

  /** `subcommands[name]`: an own entry, otherwise an inherited property. */
  function TreeProperty(tree: Subcommands, name: string): (p: Property)
    ensures name in tree && tree[name].Method? ==> p == AuthorMethod(tree[name].handler)
    ensures name in tree && tree[name].Group? ==> p == AuthorGroup(tree[name].members)
    ensures name !in tree ==> p == Inherited(name)
  {
    if name in tree then
      match tree[name]
      case Method(h) => AuthorMethod(h)
      case Group(m) => AuthorGroup(m)
    else Inherited(name)
  }

  /** `group[name]` of a property that is an object. */
  function MemberProperty(group: Property, name: string): (p: Property)
    requires IsObjectType(group)
    ensures group.AuthorGroup? && name in group.members ==> p == AuthorMethod(group.members[name])
    ensures group.AuthorGroup? && name !in group.members ==> p == Inherited(name)
    ensures group.ObjectPrototype? ==> p == PrototypeProperty(name)
    ensures group.NullProperty? ==> p.NoProperty?
  {
    match group
    case AuthorGroup(m) => if name in m then AuthorMethod(m[name]) else Inherited(name)
    case ObjectPrototype => PrototypeProperty(name)
    case _ => NoProperty   // reading a property of null throws; no tree holds null
  }

  /** `typeof p`. */
  function TypeOfProperty(p: Property): string {
    match p
    case NoProperty => "undefined"
    case AuthorMethod(_) => "function"
    case ObjectFunction => "function"
    case _ => "object"
  }

  predicate IsFunctionType(p: Property) {
    TypeOfProperty(p) == "function"
  }

  predicate IsObjectType(p: Property) {
    TypeOfProperty(p) == "object"
  }

  /** The property is truthy: neither undefined nor null. */
  predicate TruthyProperty(p: Property) {
    !p.NoProperty? && !p.NullProperty?
  }

  /** Calling a function property: an author's method is recorded in the
      trace; the built-in `Object` function has no effect. */
  function Call(p: Property): (trace: seq<Handler>)
    requires IsFunctionType(p)
    ensures p.AuthorMethod? ==> trace == [p.handler]
    ensures p.ObjectFunction? ==> trace == []
  {
    if p.AuthorMethod? then [p.handler] else []
  }

  function RunOf(t: Target): (trace: seq<Handler>)
    ensures t.run.None? ==> trace == []
    ensures t.run.Some? ==> trace == [t.run.value]
  {
    if t.run.Some? then [t.run.value] else []
  }

  /** The autocomplete stage: an autocomplete interaction calls the
      command's `autocomplete` handler when it has one. */
  function AutocompleteStage(i: Interaction, t: Target): seq<Handler> {
    if i.kind.AutocompleteInteraction? && t.autocomplete.Some? then [t.autocomplete.value] else []
  }

  // ----- The shapes of subcommand tree that lead to a call -----

  /** The interaction names a group and a subcommand, and the tree holds
      that group as its own entry, with that subcommand as its own member. */
  predicate CallsGroupMember(i: Interaction, t: Target) {
    && Present(i.subcommandGroup) && Present(i.subcommand) && t.subcommands.Some?
    && i.subcommandGroup.value in t.subcommands.value
    && t.subcommands.value[i.subcommandGroup.value].Group?
    && i.subcommand.value in t.subcommands.value[i.subcommandGroup.value].members
  }

  /** The interaction names a subcommand and no group, and the tree holds
      a method under that name as its own entry. */
  predicate CallsMethod(i: Interaction, t: Target) {
    && !Present(i.subcommandGroup) && Present(i.subcommand) && t.subcommands.Some?
    && i.subcommand.value in t.subcommands.value
    && t.subcommands.value[i.subcommand.value].Method?
  }

  /** The group entry has the wrong shape for a grouped subcommand: it is
      a method, or the inherited `constructor`, or absent; or it is a group
      and the subcommand `__proto__` reads the inherited `Object.prototype`,
      which is truthy but cannot be called. */
  predicate GroupShapeWrong(tree: Subcommands, group: string, sub: string) {
    if group in tree then
      tree[group].Method? || (sub == "__proto__" && sub !in tree[group].members)
    else group != "__proto__"
  }

  /** The entry has the wrong shape for an ungrouped subcommand: there is
      no tree, or the entry is a group, or the name is neither an own entry
      nor the inherited `constructor`. */
  predicate MethodShapeWrong(tree: Option<Subcommands>, sub: string) {
    if tree.None? then true
    else if sub in tree.value then tree.value[sub].Group?
    else sub != "constructor"
  }

  /** The entry the interaction's names point at makes the `Iubus`
      listener throw. */
  predicate MalformedTree(i: Interaction, t: Target) {
    && Present(i.subcommand)
    && if Present(i.subcommandGroup) && t.subcommands.Some? then
         GroupShapeWrong(t.subcommands.value, i.subcommandGroup.value, i.subcommand.value)
       else MethodShapeWrong(t.subcommands, i.subcommand.value)
  }

  // ----- lib/util/interactionListener.ts -----

  /** The listener's subcommand stage: a group entry of type object has
      its member called when that is of type function; with no group, an
      entry of type function is called; every other shape is skipped.
      Only an author's own method is ever recorded: the inherited
      `constructor` is the built-in `Object` function. */
  function ListenerSubcommandStage(i: Interaction, t: Target): (trace: seq<Handler>)
    ensures CallsGroupMember(i, t) ==>
      trace == [t.subcommands.value[i.subcommandGroup.value].members[i.subcommand.value]]
    ensures CallsMethod(i, t) ==> trace == [t.subcommands.value[i.subcommand.value].handler]
    ensures !CallsGroupMember(i, t) && !CallsMethod(i, t) ==> trace == []
  {
    if t.subcommands.Some? && (Present(i.subcommand) || Present(i.subcommandGroup)) then
      var tree, sub, group := t.subcommands.value, i.subcommand.GetOr(""), i.subcommandGroup.GetOr("");
      if Present(i.subcommandGroup) && Present(i.subcommand) && IsObjectType(TreeProperty(tree, group)) then
        var callee := MemberProperty(TreeProperty(tree, group), sub);
        if IsFunctionType(callee) then Call(callee) else []
      else if !Present(i.subcommandGroup) && Present(i.subcommand) && IsFunctionType(TreeProperty(tree, sub)) then
        Call(TreeProperty(tree, sub))
      else []
    else []
  }

  /** What the listener calls for an interaction with a resolved command. */
  function ListenerRoute(i: Interaction, t: Target): (trace: seq<Handler>)
    ensures !Handled(i) ==> trace == []
    ensures i.kind.AutocompleteInteraction? ==>
      trace == (if t.autocomplete.Some? then [t.autocomplete.value] else [])
    ensures i.kind.ChatInputInteraction? && t.kind == ChatInput ==>
      trace == ListenerSubcommandStage(i, t) + RunOf(t)
    ensures (i.kind.UserContextInteraction? || i.kind.MessageContextInteraction?) ==>
      trace == (if ContextMatches(i.kind, t.kind) then RunOf(t) else [])
    ensures i.kind.ChatInputInteraction? && t.kind != ChatInput ==> trace == []
  {
    if !Handled(i) then []
    else
      AutocompleteStage(i, t) +
      if i.kind.ChatInputInteraction? && t.kind == ChatInput then
        ListenerSubcommandStage(i, t) + RunOf(t)
      else if i.kind.UserContextInteraction? && t.kind == User then RunOf(t)
      else if i.kind.MessageContextInteraction? && t.kind == Message then RunOf(t)
      else []
  }

  /** A context-menu interaction matches a command of its own type. */
  predicate ContextMatches(k: InteractionKind, c: CommandType) {
    (k.UserContextInteraction? && c == User) || (k.MessageContextInteraction? && c == Message)
  }

  /** `interactionListener(interaction, commands)`: an unknown command name
      calls nothing; it never throws. */
  function ListenerDispatch(i: Interaction, commands: Collection<BaseCommand>): (trace: seq<Handler>)
    ensures !Handled(i) ==> trace == []
    ensures Get(commands, i.commandName).None? ==> trace == []
    ensures Handled(i) && Get(commands, i.commandName).Some? ==>
      trace == ListenerRoute(i, DispatchTarget(Get(commands, i.commandName).value))
  {
    if !Handled(i) then []
    else match Get(commands, i.commandName)
      case None => []
      case Some(c) => ListenerRoute(i, DispatchTarget(c))
  }

  // ----- Iubus#setupInteractionListener -----

  /** The errors the `Iubus` listener throws on a malformed tree entry:
      its own two, and the `TypeError` of calling a member that is not a
      function. */
  datatype DispatchError =
    | GroupNotObject(group: string, command: string, found: string)
    | SubcommandNotFunction(subcommand: string, command: string, found: string)
    | NotCallable(subcommand: string)

  /** The thrown error's message. */
  function ErrorMessage(e: DispatchError): string {
    match e
    case GroupNotObject(group, command, found) =>
      "Expected subcommand " + group + " on command " + command
      + " to be of type object as it is a group. Instead found type " + found + "."
    case SubcommandNotFunction(sub, command, found) =>
      "Expected subcommand " + sub + " on command " + command
      + " to be of type function as it is not part of a group. Instead found type " + found + "."
    case NotCallable(_) => "method is not a function"
  }

  /** The `Iubus` subcommand stage: with a group, a subcommand and a tree,
      the group entry must be of type object and its member, when truthy,
      is called; otherwise, with a subcommand, the entry must be of type
      function. It throws exactly on a malformed entry, and otherwise calls
      what the non-throwing listener calls. */
  function IubusSubcommandStage(i: Interaction, t: Target): (r: Result<seq<Handler>, DispatchError>)
    ensures r.Failure? <==> MalformedTree(i, t)
    ensures r.Success? ==> r.value == ListenerSubcommandStage(i, t)
  {
    var sub, group := i.subcommand.GetOr(""), i.subcommandGroup.GetOr("");
    if Present(i.subcommand) && Present(i.subcommandGroup) && t.subcommands.Some? then
      var entry := TreeProperty(t.subcommands.value, group);
      if !IsObjectType(entry) then
        Failure(GroupNotObject(group, t.name, TypeOfProperty(entry)))
      else
        var callee := MemberProperty(entry, sub);
        if !TruthyProperty(callee) then Success([])
        else if !IsFunctionType(callee) then Failure(NotCallable(sub))
        else Success(Call(callee))
    else if Present(i.subcommand) then
      var callee := if t.subcommands.Some? then TreeProperty(t.subcommands.value, sub) else NoProperty;
      if !IsFunctionType(callee) then
        Failure(SubcommandNotFunction(sub, t.name, TypeOfProperty(callee)))
      else Success(Call(callee))
    else Success([])
  }

  /** What the `Iubus` listener calls for an interaction with a resolved
      command; a thrown error stops it before `run`. */
  function IubusRoute(i: Interaction, t: Target): (r: Result<seq<Handler>, DispatchError>)
    ensures !(i.kind.ChatInputInteraction? && t.kind == ChatInput) ==> r.Success?
  {
    if !Handled(i) then Success([])
    else if i.kind.ChatInputInteraction? && t.kind == ChatInput then
      match IubusSubcommandStage(i, t)
      case Failure(e) => Failure(e)
      case Success(trace) => Success(AutocompleteStage(i, t) + trace + RunOf(t))
    else
      Success(AutocompleteStage(i, t) +
        if i.kind.UserContextInteraction? && t.kind == User then RunOf(t)
        else if i.kind.MessageContextInteraction? && t.kind == Message then RunOf(t)
        else [])
  }

  /** The `interactionCreate` handler `Iubus` installs: an unknown command
      name calls nothing. */
  function IubusDispatch(i: Interaction, commands: Collection<LegacyCommand.LegacyCommand>): (r: Result<seq<Handler>, DispatchError>)
    ensures !Handled(i) ==> r == Success([])
    ensures Get(commands, i.commandName).None? ==> r == Success([])
    ensures Handled(i) && Get(commands, i.commandName).Some? ==>
      r == IubusRoute(i, LegacyCommand.DispatchTarget(Get(commands, i.commandName).value))
  {
    if !Handled(i) then Success([])
    else match Get(commands, i.commandName)
      case None => Success([])
      case Some(c) => IubusRoute(i, LegacyCommand.DispatchTarget(c))
  }

  // ----- How the two versions relate -----

  /** A chat-input interaction on a chat-input command whose tree entry
      is malformed. */
  predicate Malformed(i: Interaction, t: Target) {
    i.kind.ChatInputInteraction? && t.kind == ChatInput && MalformedTree(i, t)
  }

  /** The `Iubus` listener throws exactly on malformed entries. */
  lemma IubusFailsIffMalformed(i: Interaction, t: Target)
    ensures IubusRoute(i, t).Failure? <==> Malformed(i, t)
  {
  }

  /** Whenever the `Iubus` listener does not throw, it calls exactly what
      the non-throwing listener calls. */
  lemma IubusAgreesWithListener(i: Interaction, t: Target)
    requires IubusRoute(i, t).Success?
    ensures IubusRoute(i, t).value == ListenerRoute(i, t)
  {
    if i.kind.ChatInputInteraction? && t.kind == ChatInput {
      assert IubusSubcommandStage(i, t) == Success(ListenerSubcommandStage(i, t));
    }
  }

  /** On a malformed entry the non-throwing listener skips the subcommand
      stage and still calls `run`, where the `Iubus` listener calls
      nothing. */
  lemma MalformedOnlyRuns(i: Interaction, t: Target)
    requires Malformed(i, t)
    ensures ListenerRoute(i, t) == RunOf(t)
  {
    assert ListenerSubcommandStage(i, t) == [];
  }

  /** An autocomplete interaction calls at most the command's autocomplete
      handler, never `run` or a subcommand, in both versions. */
  lemma AutocompleteIsolated(i: Interaction, t: Target)
    requires i.kind.AutocompleteInteraction?
    ensures ListenerRoute(i, t) == IubusRoute(i, t).value
    ensures t.autocomplete.Some? ==> ListenerRoute(i, t) == [t.autocomplete.value]
    ensures t.autocomplete.None? ==> ListenerRoute(i, t) == []
  {
  }

  /** A chat-input interaction calls at most one subcommand handler and
      then `run`, which always comes last. */
  lemma RunComesLast(i: Interaction, t: Target)
    requires i.kind.ChatInputInteraction? && t.kind == ChatInput && t.run.Some?
    ensures |ListenerRoute(i, t)| >= 1
    ensures ListenerRoute(i, t)[|ListenerRoute(i, t)| - 1] == t.run.value
    ensures |ListenerRoute(i, t)| <= 2
  {
  }

  /** The tree `{"add": fn1, "group": {"member": fn2}}` of a `role`
      command with no `run`. */
  function RoleTarget(): Target {
    Target("role", ChatInput, None, None,
      Some(map["add" := Method(1), "group" := Group(map["member" := 2])]))
  }

  /** Routing through that tree: `add` calls fn1 only, `group member`
      calls fn2 only, and a group name pointing at the method `add` is a
      structural error for `Iubus`, skipped by the listener. */
  lemma RoleFixture()
    ensures IubusRoute(Interaction(ChatInputInteraction, "role", Some("add"), None), RoleTarget()) == Success([1])
    ensures IubusRoute(Interaction(ChatInputInteraction, "role", Some("member"), Some("group")), RoleTarget()) == Success([2])
    ensures IubusRoute(Interaction(ChatInputInteraction, "role", Some("member"), Some("add")), RoleTarget())
      == Failure(GroupNotObject("add", "role", "function"))
    ensures ListenerRoute(Interaction(ChatInputInteraction, "role", Some("member"), Some("add")), RoleTarget()) == []
  {
    var t := RoleTarget();
    assert TreeProperty(t.subcommands.value, "add") == AuthorMethod(1);
    assert TreeProperty(t.subcommands.value, "group") == AuthorGroup(map["member" := 2]);
    var add := Interaction(ChatInputInteraction, "role", Some("add"), None);
    assert IubusSubcommandStage(add, t) == Success([1]);
    assert AutocompleteStage(add, t) == [] && RunOf(t) == [];
    assert [] + [1] + [] == [1];
    var member := Interaction(ChatInputInteraction, "role", Some("member"), Some("group"));
    assert IubusSubcommandStage(member, t) == Success([2]);
    assert AutocompleteStage(member, t) == [];
    assert [] + [2] + [] == [2];
  }

  /** Names that the tree does not hold itself read inherited properties:
      `constructor` with no group finds the built-in `Object` function, so
      `Iubus` does not throw and only `run` is recorded; the group
      `__proto__` is the object `Object.prototype`, so it does not throw
      either; and the subcommand `__proto__` of a real group is an object
      that cannot be called. */
  lemma InheritedNamesFixture()
    ensures IubusRoute(Interaction(ChatInputInteraction, "role", Some("constructor"), None), RoleTarget()) == Success([])
    ensures IubusRoute(Interaction(ChatInputInteraction, "role", Some("member"), Some("__proto__")), RoleTarget()) == Success([])
    ensures IubusRoute(Interaction(ChatInputInteraction, "role", Some("__proto__"), Some("group")), RoleTarget())
      == Failure(NotCallable("__proto__"))
    ensures ListenerRoute(Interaction(ChatInputInteraction, "role", Some("__proto__"), Some("group")), RoleTarget()) == []
  {
    var t := RoleTarget();
    assert "constructor" !in t.subcommands.value && "__proto__" !in t.subcommands.value;
    assert "__proto__" !in t.subcommands.value["group"].members;
    assert TreeProperty(t.subcommands.value, "constructor") == ObjectFunction;
    assert TreeProperty(t.subcommands.value, "__proto__") == ObjectPrototype;
    var ctor := Interaction(ChatInputInteraction, "role", Some("constructor"), None);
    assert IubusSubcommandStage(ctor, t) == Success([]);
    assert AutocompleteStage(ctor, t) == [] && RunOf(t) == [];
    assert AutocompleteStage(ctor, t) + [] + RunOf(t) == [];
    var proto := Interaction(ChatInputInteraction, "role", Some("member"), Some("__proto__"));
    assert IubusSubcommandStage(proto, t) == Success([]);
    assert AutocompleteStage(proto, t) == [];
  }
}

=== FILE: inhibitor.dfy ===
/** Inhibitors (lib/structures/Inhibitor.ts): a name and a guard handler.
    Nothing in the modelled code runs them; they are only registered. */
module Inhibitors {
  import opened Wrappers

  datatype Inhibitor = Inhibitor(name: string, run: Handler)

  /** `new Inhibitor(data)` copies the name and the guard. */
  function NewInhibitor(name: string, run: Handler): (i: Inhibitor)
    ensures i.name == name && i.run == run
  {
    Inhibitor(name, run)
  }

  /** The key an inhibitor is registered under. */
  function InhibitorName(i: Inhibitor): string {
    i.name
  }

  /** An entry of a command's `inhibitors` list: a registered inhibitor's
      name or the inhibitor itself. */
  datatype InhibitorRef = ByName(name: string) | Direct(inhibitor: Inhibitor)
}

=== FILE: iubus.dfy ===
/** The `Iubus` singleton (lib/structures/Iubus.ts): `init` may run once;
    it registers the discovered commands by name when a command directory
    is configured and installs the throwing interaction listener. Module
    discovery and event wiring are not modelled: the discovered commands
    are a parameter. */
module Iubus {
  import opened Wrappers
  import opened Inhibitors
  import opened Collections
  import opened LegacyCommand
  import opened Dispatch

  datatype IubusState = IubusState(
    commandDir: Option<string>,
    eventDir: Option<string>,
    commands: Collection<LegacyCommand>,
    initialized: bool,
    listenerInstalled: bool)

  /** The registry maps each name to a command of that name, once. */
  predicate RegistryWellFormed(s: IubusState) {
    KeysUnique(s.commands) && KeyedBy(s.commands, LegacyName)
  }

  /** `new Iubus(data)`: an empty registry, not yet initialised. */
  function NewIubus(commandDir: Option<string>, eventDir: Option<string>): (s: IubusState)
    ensures s.commandDir == commandDir && s.eventDir == eventDir
    ensures Keys(s.commands) == {} && !s.initialized && !s.listenerInstalled
    ensures RegistryWellFormed(s)
  {
    IubusState(commandDir, eventDir, Empty(), false, false)
  }

  const InitTwiceMessage := "Cannot initialize twice."

  /** `init(client)`, given the commands module discovery finds in the
      command directory, in discovery order. */
  function Init(s: IubusState, discovered: seq<LegacyCommand>): (r: Result<IubusState, string>)
    ensures r.Failure? <==> s.initialized
    ensures r.Failure? ==> r.error == InitTwiceMessage
    ensures r.Success? ==> r.value.initialized && r.value.listenerInstalled
    ensures r.Success? ==> r.value.commandDir == s.commandDir && r.value.eventDir == s.eventDir
    ensures r.Success? && !Present(s.commandDir) ==> r.value.commands == s.commands
  {
    if s.initialized then Failure(InitTwiceMessage)
    else
      var commands := if Present(s.commandDir) then SetAll(s.commands, discovered, LegacyName) else s.commands;
      Success(s.(commands := commands, initialized := true, listenerInstalled := true))
  }

  /** `init` keeps every name bound to a command of that name, once. */
  lemma InitKeepsRegistryWellFormed(s: IubusState, discovered: seq<LegacyCommand>)
    requires RegistryWellFormed(s) && !s.initialized
    ensures RegistryWellFormed(Init(s, discovered).value)
  {
    SetAllKeyed(s.commands, discovered, LegacyName);
  }

  /** A second `init` always throws, whatever the first one registered. */
  lemma InitOnce(s: IubusState, first: seq<LegacyCommand>, second: seq<LegacyCommand>)
    requires Init(s, first).Success?
    ensures Init(Init(s, first).value, second) == Failure(InitTwiceMessage)
  {
  }

  /** With a command directory, each discovered name is bound to the last
      command discovered under it; names not discovered keep what they had. */
  lemma InitRegistersLastWins(s: IubusState, discovered: seq<LegacyCommand>, name: string)
    requires !s.initialized && Present(s.commandDir)
    ensures LastWithKey(discovered, name, LegacyName).Some? ==>
      Get(Init(s, discovered).value.commands, name) == LastWithKey(discovered, name, LegacyName)
    ensures LastWithKey(discovered, name, LegacyName).None? ==>
      Get(Init(s, discovered).value.commands, name) == Get(s.commands, name)
  {
    SetAllLastWins(s.commands, discovered, LegacyName, name);
  }

  /** An `interactionCreate` event: before `init` no listener exists and
      nothing is called. */
  function OnInteraction(s: IubusState, i: Interaction): (r: Result<seq<Handler>, DispatchError>)
    ensures !s.listenerInstalled ==> r == Success([])
    ensures s.listenerInstalled ==> r == IubusDispatch(i, s.commands)
  {
    if s.listenerInstalled then IubusDispatch(i, s.commands) else Success([])
  }

  /** After `init` with a command directory, an interaction naming a
      discovered command reaches the last command discovered under that
      name. */
  lemma InitThenDispatch(s: IubusState, discovered: seq<LegacyCommand>, i: Interaction)
    requires !s.initialized && Present(s.commandDir) && Handled(i)
    requires LastWithKey(discovered, i.commandName, LegacyName).Some?
    ensures OnInteraction(Init(s, discovered).value, i)
      == IubusRoute(i, DispatchTarget(LastWithKey(discovered, i.commandName, LegacyName).value))
  {
    InitRegistersLastWins(s, discovered, i.commandName);
  }
}

=== FILE: iubus_client.dfy ===
/** The `IubusClient` (lib/structures/IubusClient.ts): `login` may run once;
    with a command directory it registers the discovered commands by name,
    installs the non-throwing interaction listener, and, when
    `deploy.deployOnChange` is set, a one-shot `ready` hook that deploys on
    change; with an inhibitor directory it registers the discovered
    inhibitors by name. Module discovery, event wiring and the gateway
    login are not modelled: what discovery finds is a parameter. */
module IubusClient {
  import opened Wrappers
  import opened Inhibitors
  import opened Collections
  import opened Command
  import opened Dispatch
  import opened CommandSort
  import opened CommandDeployment

  /** `DeployOptions & { deployOnChange?: boolean }`. */
  datatype DeployConfig = DeployConfig(options: DeployOptions, deployOnChange: Option<bool>)

  datatype ClientState = ClientState(
    commandDir: Option<string>,
    eventDir: Option<string>,
    inhibitorDir: Option<string>,
    deploy: Option<DeployConfig>,
    commands: Collection<BaseCommand>,
    inhibitors: Collection<Inhibitor>,
    initialized: bool,
    listenerInstalled: bool,
    readyHookInstalled: bool)

  /** The deploy options, when given, have the shape their type demands. */
  predicate ValidConfig(s: ClientState) {
    s.deploy.Some? ==> ValidDeployOptions(s.deploy.value.options)
  }

  /** Both registries map each name to an entry of that name, once. */
  predicate RegistriesWellFormed(s: ClientState) {
    && KeysUnique(s.commands) && KeyedBy(s.commands, CommandName)
    && KeysUnique(s.inhibitors) && KeyedBy(s.inhibitors, InhibitorName)
  }

  /** `deploy?.deployOnChange` is truthy. */
  predicate DeploysOnChange(s: ClientState) {
    s.deploy.Some? && s.deploy.value.deployOnChange == Some(true)
  }

  /** `new IubusClient(options)`: empty registries, nothing installed. */
  function NewClient(commandDir: Option<string>, eventDir: Option<string>, inhibitorDir: Option<string>,
                     deploy: Option<DeployConfig>): (s: ClientState)
    ensures s.commandDir == commandDir && s.eventDir == eventDir
    ensures s.inhibitorDir == inhibitorDir && s.deploy == deploy
    ensures Keys(s.commands) == {} && Keys(s.inhibitors) == {}
    ensures !s.initialized && !s.listenerInstalled && !s.readyHookInstalled
    ensures RegistriesWellFormed(s)
  {
    ClientState(commandDir, eventDir, inhibitorDir, deploy, Empty(), Empty(), false, false, false)
  }

  const LoginTwiceMessage := "Cannot initialize twice."

  /** `login(token)`, given the commands and inhibitors module discovery
      finds, in discovery order. */
  function Login(s: ClientState, discoveredCommands: seq<BaseCommand>, discoveredInhibitors: seq<Inhibitor>)
    : (r: Result<ClientState, string>)
    ensures r.Failure? <==> s.initialized
    ensures r.Failure? ==> r.error == LoginTwiceMessage
    ensures r.Success? ==> r.value.initialized
    ensures r.Success? ==> r.value.listenerInstalled == (s.listenerInstalled || Present(s.commandDir))
    ensures r.Success? ==>
      r.value.readyHookInstalled == (s.readyHookInstalled || (Present(s.commandDir) && DeploysOnChange(s)))
    ensures r.Success? && !Present(s.commandDir) ==> r.value.commands == s.commands
    ensures r.Success? && !Present(s.inhibitorDir) ==> r.value.inhibitors == s.inhibitors
    ensures r.Success? ==>
      && r.value.commandDir == s.commandDir && r.value.eventDir == s.eventDir
      && r.value.inhibitorDir == s.inhibitorDir && r.value.deploy == s.deploy
  {
    if s.initialized then Failure(LoginTwiceMessage)
    else
      var withCommands :=
        if Present(s.commandDir) then
          s.(commands := SetAll(s.commands, discoveredCommands, CommandName),
             readyHookInstalled := s.readyHookInstalled || DeploysOnChange(s),
             listenerInstalled := true)
        else s;
      var withInhibitors :=
        if Present(s.inhibitorDir) then
          withCommands.(inhibitors := SetAll(s.inhibitors, discoveredInhibitors, InhibitorName))
        else withCommands;
      Success(withInhibitors.(initialized := true))
  }

  /** A second `login` always throws. */
  lemma LoginOnce(s: ClientState, cmds: seq<BaseCommand>, inhibitors: seq<Inhibitor>,
                  cmds2: seq<BaseCommand>, inhibitors2: seq<Inhibitor>)
    requires Login(s, cmds, inhibitors).Success?
    ensures Login(Login(s, cmds, inhibitors).value, cmds2, inhibitors2) == Failure(LoginTwiceMessage)
  {
  }

  /** `login` keeps both registries well formed. */
  lemma LoginKeepsRegistriesWellFormed(s: ClientState, cmds: seq<BaseCommand>, inhibitors: seq<Inhibitor>)
    requires RegistriesWellFormed(s) && !s.initialized
    ensures RegistriesWellFormed(Login(s, cmds, inhibitors).value)
  {
    SetAllKeyed(s.commands, cmds, CommandName);
    SetAllKeyed(s.inhibitors, inhibitors, InhibitorName);
  }

  /** With a command directory, each discovered command name is bound to
      the last command discovered under it, and likewise for inhibitors
      with an inhibitor directory. */
  lemma LoginRegistersLastWins(s: ClientState, cmds: seq<BaseCommand>, inhibitors: seq<Inhibitor>, name: string)
    requires !s.initialized
    ensures Present(s.commandDir) && LastWithKey(cmds, name, CommandName).Some? ==>
      Get(Login(s, cmds, inhibitors).value.commands, name) == LastWithKey(cmds, name, CommandName)
    ensures Present(s.inhibitorDir) && LastWithKey(inhibitors, name, InhibitorName).Some? ==>
      Get(Login(s, cmds, inhibitors).value.inhibitors, name) == LastWithKey(inhibitors, name, InhibitorName)
  {
    SetAllLastWins(s.commands, cmds, CommandName, name);
    SetAllLastWins(s.inhibitors, inhibitors, InhibitorName, name);
  }

  /** An `interactionCreate` event: the listener exists only after a
      `login` with a command directory. */
  function OnInteraction(s: ClientState, i: Interaction): (trace: seq<Handler>)
    ensures !s.listenerInstalled ==> trace == []
    ensures s.listenerInstalled ==> trace == ListenerDispatch(i, s.commands)
  {
    if s.listenerInstalled then ListenerDispatch(i, s.commands) else []
  }

  /** What a `ready` event leaves behind: the client, and the push its
      hook made, if any. */
  datatype ReadyOutcome = ReadyOutcome(client: ClientState, push: Option<Push>)

  /** The `ready` event, with the commands the remote end currently holds:
      the hook, when installed, deploys the registered commands if they
      differ from the remote ones. It is registered with `once`, so the
      event removes it. The registry's names are distinct, so a push is
      sorted by name. */
  function OnReady(s: ClientState, remote: seq<CommandObject>): (r: ReadyOutcome)
    requires ValidConfig(s) && RegistriesWellFormed(s)
    requires s.readyHookInstalled ==> s.deploy.Some?
    ensures r.client == s.(readyHookInstalled := false)
    ensures !s.readyHookInstalled ==> r.push.None?
    ensures s.readyHookInstalled ==>
      (r.push.None? <==> PayloadsMatch(LocalObjects(Values(s.commands), s.deploy.value.options), remote))
    ensures r.push.Some? ==> r.push.value.route == DeployRoute(s.deploy.value.options)
    ensures r.push.Some? ==> NamesAscending(r.push.value.body)
  {
    var client := s.(readyHookInstalled := false);
    if !s.readyHookInstalled then ReadyOutcome(client, None)
    else
      RegisteredNamesDistinct(s);
      ReadyOutcome(client, DeployOnChange(Values(s.commands), remote, s.deploy.value.options))
  }

  /** The hook runs on the first `ready` event only: a later one deploys
      nothing, whatever the remote end holds by then. */
  lemma SecondReadyDeploysNothing(s: ClientState, remote: seq<CommandObject>, later: seq<CommandObject>)
    requires ValidConfig(s) && RegistriesWellFormed(s)
    requires s.readyHookInstalled ==> s.deploy.Some?
    ensures OnReady(OnReady(s, remote).client, later).push.None?
    ensures OnReady(OnReady(s, remote).client, later).client == OnReady(s, remote).client
  {
  }

  /** The registered commands have pairwise distinct names. */
  lemma RegisteredNamesDistinct(s: ClientState)
    requires RegistriesWellFormed(s)
    ensures DistinctNames(Values(s.commands))
  {
    ValuesDistinct(s.commands, CommandName);
  }

  /** A client built without a command directory never installs the
      listener or the hook, so no interaction calls anything and `ready`
      deploys nothing. */
  lemma NoCommandDirNoHandlers(commandDir: Option<string>, eventDir: Option<string>, inhibitorDir: Option<string>,
                               deploy: Option<DeployConfig>, cmds: seq<BaseCommand>, inhibitors: seq<Inhibitor>,
                               i: Interaction)
    requires !Present(commandDir)
    ensures !Login(NewClient(commandDir, eventDir, inhibitorDir, deploy), cmds, inhibitors).value.readyHookInstalled
    ensures OnInteraction(Login(NewClient(commandDir, eventDir, inhibitorDir, deploy), cmds, inhibitors).value, i) == []
  {
  }

  /** A client built with a command directory but without `deployOnChange`
      listens for interactions but installs no `ready` hook. */
  lemma NoDeployOnChangeNoHook(commandDir: Option<string>, eventDir: Option<string>, inhibitorDir: Option<string>,
                               deploy: Option<DeployConfig>, cmds: seq<BaseCommand>, inhibitors: seq<Inhibitor>)
    requires Present(commandDir)
    requires deploy.None? || deploy.value.deployOnChange != Some(true)
    ensures Login(NewClient(commandDir, eventDir, inhibitorDir, deploy), cmds, inhibitors).value.listenerInstalled
    ensures !Login(NewClient(commandDir, eventDir, inhibitorDir, deploy), cmds, inhibitors).value.readyHookInstalled
  {
  }
}

=== FILE: json.dfy ===
/** JavaScript values as the deployment code sees them: the primitives it
    compares, arrays, and plain objects. Numbers are integers (no floating
    point behaviour is needed), so there is no NaN and no negative zero. */
module JsonValue {
  import opened Wrappers

  datatype Json =
    | Undefined
    | Null
    | Bool(b: bool)
    | Int(i: int)
    | Str(s: string)
    | Arr(items: seq<Json>)
    | Obj(fields: map<string, Json>)

  /** The own enumerable properties of a plain object. */
  type Props = map<string, Json>

  /** JavaScript truthiness: undefined, null, false, 0 and "" are falsy;
      every array and object is truthy. */
  predicate Truthy(v: Json) {
    match v
    case Undefined => false
    case Null => false
    case Bool(b) => b
    case Int(i) => i != 0
    case Str(s) => s != ""
    case _ => true
  }

  /** `v == null` in JavaScript: undefined or null. */
  predicate Nullish(v: Json) {
    v.Undefined? || v.Null?
  }

  /** The nullish-coalescing operator `v ?? fallback`. */
  function Coalesce(v: Json, fallback: Json): (r: Json)
    ensures Nullish(v) ==> r == fallback
    ensures !Nullish(v) ==> r == v
  {
    if Nullish(v) then fallback else v
  }

  predicate IsPrimitive(v: Json) {
    !v.Arr? && !v.Obj?
  }

  /** `Object.is(a, b)`. Primitives are compared by value. Every array or
      object value stands for its own reference, so two of them are never
      `Object.is`-equal here; the deep comparison gives the same answer for
      a reference compared with itself, because it is reflexive. */
  predicate SameValue(a: Json, b: Json) {
    IsPrimitive(a) && a == b
  }

  /** `typeof v === "object"` for a non-null value: arrays and objects. */
  predicate IsObject(v: Json) {
    v.Arr? || v.Obj?
  }

  predicate IsDigit(c: char) {
    '0' <= c <= '9'
  }

  function DigitChar(d: nat): (c: char)
    requires d < 10
    ensures IsDigit(c)
  {
    "0123456789"[d]
  }

  /** Decimal rendering of a natural number, as `String(n)` produces it. */
  function NatToString(n: nat): (r: string)
    ensures |r| >= 1
    ensures n < 10 <==> |r| == 1
    ensures forall i | 0 <= i < |r| :: IsDigit(r[i])
    decreases n
  {
    if n < 10 then [DigitChar(n)] else NatToString(n / 10) + [DigitChar(n % 10)]
  }

  /** Distinct numbers have distinct decimal renderings. */
  lemma {:induction false} NatToStringInjective(a: nat, b: nat)
    requires NatToString(a) == NatToString(b)
    ensures a == b
    decreases a
  {
    if a >= 10 && b >= 10 {
      var sa, sb := NatToString(a), NatToString(b);
      assert sa[..|sa| - 1] == NatToString(a / 10);
      assert sb[..|sb| - 1] == NatToString(b / 10);
      NatToStringInjective(a / 10, b / 10);
      assert DigitChar(a % 10) == sa[|sa| - 1] == sb[|sb| - 1] == DigitChar(b % 10);
    }
  }

  /** Decimal rendering of an integer, with a leading '-' when negative, as
      `toString` renders a bigint or an integral number. */
  function IntToString(n: int): (r: string)
    ensures |r| >= 1
    ensures n < 0 <==> r[0] == '-'
  {
    if n < 0 then "-" + NatToString(-n) else NatToString(n)
  }

  /** Texts joined with commas, as `Array.prototype.join` does. */
  function JoinTexts(parts: seq<string>): string {
    if |parts| == 0 then ""
    else if |parts| == 1 then parts[0]
    else JoinTexts(parts[..|parts| - 1]) + "," + parts[|parts| - 1]
  }

  /** `String(v)`: an array renders its elements joined by commas, with
      `null` and `undefined` elements empty; a plain object renders as
      "[object Object]". */
  function ToText(v: Json): string
    decreases v
  {
    match v
    case Undefined => "undefined"
    case Null => "null"
    case Bool(b) => if b then "true" else "false"
    case Int(i) => IntToString(i)
    case Str(s) => s
    case Arr(items) =>
      JoinTexts(seq(|items|, k requires 0 <= k < |items| =>
        if Nullish(items[k]) then "" else ToText(items[k])))
    case Obj(_) => "[object Object]"
  }

  /** The property key under which an array stores its element `i`. */
  function IndexKey(i: nat): (k: string)
    ensures k != "length"
  {
    var k := NatToString(i);
    assert IsDigit(k[0]);
    k
  }

  /** The element of `xs` at the first index from `from` whose key is `k`. */
  function FindIndex(xs: seq<Json>, k: string, from: nat): (r: Option<Json>)
    ensures r.Some? ==> exists i | from <= i < |xs| :: IndexKey(i) == k && r.value == xs[i]
    decreases |xs| - from
  {
    if from >= |xs| then None
    else if IndexKey(from) == k then Some(xs[from])
    else FindIndex(xs, k, from + 1)
  }

  /** Every index key of `xs` finds its own element. */
  lemma {:induction false} FindIndexOfKey(xs: seq<Json>, i: nat, from: nat)
    requires from <= i < |xs|
    ensures FindIndex(xs, IndexKey(i), from) == Some(xs[i])
    decreases |xs| - from
  {
    if IndexKey(from) == IndexKey(i) {
      NatToStringInjective(from, i);
    } else {
      FindIndexOfKey(xs, i, from + 1);
    }
  }

  /** `k in v` together with `v[k]` for an array or object `v`: its own
      properties, which for an array are its index keys and "length". Values
      that are not arrays or objects have no properties here. */
  function Lookup(v: Json, k: string): (r: Option<Json>)
    ensures v.Obj? ==> (r.Some? <==> k in v.fields)
    ensures v.Obj? && k in v.fields ==> r == Some(v.fields[k])
    ensures v.Arr? && k == "length" ==> r == Some(Int(|v.items|))
    ensures !IsObject(v) ==> r.None?
  {
    match v
    case Obj(f) => if k in f then Some(f[k]) else None
    case Arr(xs) => if k == "length" then Some(Int(|xs|)) else FindIndex(xs, k, 0)
    case _ => None
  }

  /** Reading `o[k]` from an object: `undefined` when the key is absent. */
  function Prop(o: Props, k: string): (r: Json)
    ensures k !in o ==> r == Undefined
    ensures k in o ==> r == o[k]
  {
    if k in o then o[k] else Undefined
  }
}

=== FILE: legacy_command.dfy ===
/** The older single command class (lib/structures/Command.ts), used by the
    `Iubus` singleton. */
module LegacyCommand {
  import opened Wrappers
  import opened JsonValue
  import opened Inhibitors
  import opened Command

  /** `ChatInputCommandData | ContextMenuCommandData`. */
  datatype CommandData = CommandData(
    kind: Option<CommandType>,
    name: string,
    description: string,
    options: Option<seq<Props>>,
    subcommands: Option<Subcommands>,
    run: Option<Handler>,
    autocomplete: Option<Handler>)

  datatype LegacyCommand = LegacyCommand(
    kind: CommandType,
    name: string,
    description: string,
    options: seq<Props>,
    subcommands: Option<Subcommands>,
    run: Option<Handler>,
    autocomplete: Option<Handler>)

  /** `new Command(data)`. A subcommand tree or autocomplete handler, when
      supplied, is an object or function and so always truthy: it is kept. */
  function NewCommand(data: CommandData): (c: LegacyCommand)
    ensures data.kind.None? ==> c.kind == ChatInput
    ensures data.kind.Some? ==> c.kind == data.kind.value
    ensures c.kind == ChatInput ==> c.description == data.description
    ensures c.kind != ChatInput ==> c.description == ""
    ensures data.options.None? ==> c.options == []
    ensures data.options.Some? ==> c.options == data.options.value
    ensures c.name == data.name && c.run == data.run
    ensures c.subcommands == data.subcommands && c.autocomplete == data.autocomplete
  {
    var kind := data.kind.GetOr(ChatInput);
    LegacyCommand(
      kind, data.name, if kind == ChatInput then data.description else "",
      data.options.GetOr([]), data.subcommands, data.run, data.autocomplete)
  }

  function LegacyName(c: LegacyCommand): string {
    c.name
  }

  /** What dispatch reads of a command. */
  function DispatchTarget(c: LegacyCommand): (t: Target)
    ensures t.name == c.name && t.kind == c.kind && t.run == c.run
    ensures t.autocomplete == c.autocomplete && t.subcommands == c.subcommands
  {
    Target(c.name, c.kind, c.run, c.autocomplete, c.subcommands)
  }
}

=== FILE: seqs.dfy ===
/** Mapping and filtering sequences (`Array.prototype.map` and `filter`),
    and how they treat reordered inputs. */
module Seqs {

  function MapSeq<A, B>(f: A -> B, s: seq<A>): (r: seq<B>)
    ensures |r| == |s|
    ensures forall i | 0 <= i < |s| :: r[i] == f(s[i])
  {
    seq(|s|, i requires 0 <= i < |s| => f(s[i]))
  }

  lemma MapSeqConcat<A, B>(f: A -> B, a: seq<A>, b: seq<A>)
    ensures MapSeq(f, a + b) == MapSeq(f, a) + MapSeq(f, b)
  {
  }

  /** Removing the element at `j` takes exactly one copy of it out of
      the multiset. */
  lemma RemoveAt<A>(t: seq<A>, j: int)
    requires 0 <= j < |t|
    ensures multiset(t) == multiset(t[..j] + t[j + 1..]) + multiset{t[j]}
  {
    assert t == t[..j] + [t[j]] + t[j + 1..];
  }

  lemma MapSeqRemoveAt<A, B>(f: A -> B, t: seq<A>, j: int)
    requires 0 <= j < |t|
    ensures multiset(MapSeq(f, t)) == multiset(MapSeq(f, t[..j] + t[j + 1..])) + multiset{f(t[j])}
  {
    assert MapSeq(f, t) == MapSeq(f, t[..j]) + [f(t[j])] + MapSeq(f, t[j + 1..]);
    MapSeqConcat(f, t[..j], t[j + 1..]);
  }

  lemma CancelOne<A>(a: multiset<A>, b: multiset<A>, x: A)
    requires a + multiset{x} == b + multiset{x}
    ensures a == b
  {
    assert a == (a + multiset{x}) - multiset{x};
    assert b == (b + multiset{x}) - multiset{x};
  }

  /** Taking the head of `s` out of `t`, where it sits at `j`, leaves
      reorderings of each other. */
  lemma RemoveMatching<A>(s: seq<A>, t: seq<A>, j: int)
    requires multiset(s) == multiset(t)
    requires |s| > 0 && 0 <= j < |t| && t[j] == s[0]
    ensures multiset(s[1..]) == multiset(t[..j] + t[j + 1..])
  {
    RemoveAt(t, j);
    RemoveAt(s, 0);
    assert s[..0] + s[1..] == s[1..];
    CancelOne(multiset(s[1..]), multiset(t[..j] + t[j + 1..]), s[0]);
  }

  lemma MapSeqStep<A, B>(f: A -> B, s: seq<A>, t: seq<A>, j: int)
    requires |s| > 0 && 0 <= j < |t| && t[j] == s[0]
    requires multiset(MapSeq(f, s[1..])) == multiset(MapSeq(f, t[..j] + t[j + 1..]))
    ensures multiset(MapSeq(f, s)) == multiset(MapSeq(f, t))
  {
    MapSeqRemoveAt(f, t, j);
    assert MapSeq(f, s) == [f(s[0])] + MapSeq(f, s[1..]);
  }

  /** Mapping a reordering of a sequence gives a reordering of the mapped
      sequence. */
  lemma {:induction false} MapSeqPermutation<A, B>(f: A -> B, s: seq<A>, t: seq<A>)
    requires multiset(s) == multiset(t)
    ensures multiset(MapSeq(f, s)) == multiset(MapSeq(f, t))
    decreases |s|
  {
    if |s| == 0 {
      assert |t| == |multiset(t)| == 0;
    } else {
      assert s[0] in multiset(t);
      var j :| 0 <= j < |t| && t[j] == s[0];
      RemoveMatching(s, t, j);
      MapSeqPermutation(f, s[1..], t[..j] + t[j + 1..]);
      MapSeqStep(f, s, t, j);
    }
  }

  function Filter<A>(p: A -> bool, s: seq<A>): (r: seq<A>)
    ensures |r| <= |s|
    ensures forall x | x in r :: x in s && p(x)
    decreases |s|
  {
    if |s| == 0 then []
    else if p(s[|s| - 1]) then Filter(p, s[..|s| - 1]) + [s[|s| - 1]]
    else Filter(p, s[..|s| - 1])
  }

  lemma {:induction false} FilterConcat<A>(p: A -> bool, a: seq<A>, b: seq<A>)
    ensures Filter(p, a + b) == Filter(p, a) + Filter(p, b)
    decreases |b|
  {
    if |b| > 0 {
      assert (a + b)[..|a + b| - 1] == a + b[..|b| - 1];
      FilterConcat(p, a, b[..|b| - 1]);
    } else {
      assert a + b == a;
    }
  }

  /** Filtering keeps every copy of a passing element and drops every
      copy of a failing one. */
  lemma {:induction false} FilterCount<A>(p: A -> bool, s: seq<A>)
    ensures forall x :: multiset(Filter(p, s))[x] == if p(x) then multiset(s)[x] else 0
    decreases |s|
  {
    if |s| > 0 {
      FilterCount(p, s[..|s| - 1]);
      assert s == s[..|s| - 1] + [s[|s| - 1]];
    }
  }

  /** Filtering a reordering of a sequence gives a reordering of the
      filtered sequence. */
  lemma FilterPermutation<A>(p: A -> bool, s: seq<A>, t: seq<A>)
    requires multiset(s) == multiset(t)
    ensures multiset(Filter(p, s)) == multiset(Filter(p, t))
  {
    FilterCount(p, s);
    FilterCount(p, t);
  }

}

=== FILE: string_order.dfy ===
/** The ordering `a < b` on strings used to sort commands by name:
    lexicographic on characters, a proper prefix coming first. */
module StringOrder {

  predicate StrLt(a: string, b: string)
    decreases |a|
  {
    if |a| == 0 then |b| > 0
    else if |b| == 0 then false
    else if a[0] != b[0] then a[0] < b[0]
    else StrLt(a[1..], b[1..])
  }

  lemma {:induction false} StrLtIrreflexive(a: string)
    ensures !StrLt(a, a)
    decreases |a|
  {
    if |a| > 0 {
      StrLtIrreflexive(a[1..]);
    }
  }

  lemma {:induction false} StrLtAsymmetric(a: string, b: string)
    requires StrLt(a, b)
    ensures !StrLt(b, a)
    decreases |a|
  {
    if |a| > 0 && |b| > 0 && a[0] == b[0] {
      StrLtAsymmetric(a[1..], b[1..]);
    }
  }

  lemma {:induction false} StrLtTransitive(a: string, b: string, c: string)
    requires StrLt(a, b) && StrLt(b, c)
    ensures StrLt(a, c)
    decreases |a|
  {
    if |a| > 0 && a[0] == b[0] && b[0] == c[0] {
      StrLtTransitive(a[1..], b[1..], c[1..]);
    }
  }

  /** Distinct strings are always ordered one way or the other. */
  lemma {:induction false} StrLtTotal(a: string, b: string)
    requires a != b
    ensures StrLt(a, b) || StrLt(b, a)
    decreases |a|
  {
    if |a| > 0 && |b| > 0 && a[0] == b[0] {
      assert a == [a[0]] + a[1..] && b == [b[0]] + b[1..];
      StrLtTotal(a[1..], b[1..]);
    }
  }
}

=== FILE: wrappers.dfy ===
/** Optional values, success-or-error results and handler identities,
    used throughout the model. */
module Wrappers {

  /** The identity of a handler function supplied by the bot author: what
      it does is outside the model, only whether it is called matters. */
  type Handler = nat

  /** A value that may be absent (`undefined` in the modelled code). */
  datatype Option<+T> = None | Some(value: T) {

    /** The value, or `default` when absent: the `??` operator. */
    function GetOr(default: T): T {
      match this
      case Some(v) => v
      case None => default
    }
  }

  /** Either a result or the error the modelled code throws. */
  datatype Result<+T, +E> = Success(value: T) | Failure(error: E)
}
